=== FILE: README.md ===
# TogeDog matching, location cache and marker store — a Dafny model

This project models the core of the TogeDog backend, a Spring Boot service
where dog owners meet up. It covers four parts:

- **The matching lifecycle** (`Matchings`, `MatchingRepository`,
  `MatchingService`). A member *hosts* a match at a position. Hosting again
  moves that match. Updating its status to MATCH_CANCEL publishes two
  clean-up events. A custom event promotes every match of two members to
  MATCH_SUCCESS. The reads are paging, the lookup by email and the caller's
  own lookup.
  - The table is a sequence of rows in id order. Identity ids only grow.
  - A query declared to return one row reports `NonUnique` when several rows
    match, where Spring Data throws.
  - Every write and every published event is appended to an effect log. This
    records their order, and that a no-op writes nothing.
- **The two-tier location cache** (`LocalCache`, `LocationService`). It has an
  in-process tier with a ten-minute expiry after write that caches `null`s. It
  also has a distributed key/value store (`KeyValueStore`) with per-key
  expiry, glob key listing, and a connection that can fail part-way through a
  sequence of commands.
- **The marker store** (`MarkerService`, `MarkerController`). There is one map
  marker per member, under `marker:<email>`, with a three-day expiry. It is
  replaced on every save, and listed by the `marker:*` pattern.
- **The friend-list mapping** (`FriendMapper`). It copies four contact fields
  per member.

Each operation is a pure function from a state to a new state, paired with
the value returned or the exception thrown (`Result`). The code's loops are
methods with loop invariants. The clock is an explicit `now` in seconds. The
store connection is a parameter `Link`: it is either `Up`, or serves `n` more
commands and then fails. Serialisation is abstract. A stored document is read
back only as the type that wrote it.

In these points the model follows what the code does:

- `getLocationCache` catches only `IOException`. So a store failure during its
  read escapes, and nothing is cached.
- `getMarker` overwrites the marker's email with the store key
  (`marker:<email>`). It does not keep the owner's email.
- `createMatch` does no check for an ongoing match with another member.
- `findOngoingMatchBetweenMembers` filters on status names that no status has,
  so it never finds a row.

Source paths below are relative to the repository root.

## Model

| member | source | states |
|---|---|---|
| Matchings.StatusNumber | src/main/java/com/togedog/matching/entity/Matching.java:67-79 | every status carries a declared number between 1 and 4 |
| Matchings.StatusOfNumber | src/main/java/com/togedog/matching/entity/Matching.java:68-75 | a number names a status exactly when it is 1..4, and then names the status declared with it |
| Matchings.StatusNumbering | src/main/java/com/togedog/matching/entity/Matching.java:67-79 | there are exactly four statuses, numbered 1..4 in declaration order; the number determines the status and looks it back up |
| Matchings.NewMatching | src/main/java/com/togedog/matching/entity/Matching.java:20-38 | a freshly built record is HOSTING, unsaved (id 0), with no host, guest or stand-by |
| Matchings.AddMember | src/main/java/com/togedog/matching/entity/Matching.java:55-60 | the member becomes the host; the record, already carrying that host, joins the member's list only if no equal record (equality ignores the host, as the generated equals does) is already there |
| Matchings.AddMemberNoDuplicate | src/main/java/com/togedog/matching/entity/Matching.java:55-60 | a duplicate-free member list stays duplicate-free and afterwards holds the record; no field but the host changes |
| Matchings.AddMatchingStandBy | src/main/java/com/togedog/matching/entity/Matching.java:39-44 | the stand-by is appended and its back-link points at the record; the back-link call is made exactly when it did not already |
| Matchings.AddMatchingStandByKeepsLinks | src/main/java/com/togedog/matching/entity/Matching.java:39-44 | if every stand-by of the record links back to it, every stand-by does afterwards, the appended one included, and the list grows by exactly that one |
| MatchingRepository.Filter | src/main/java/com/togedog/matching/repository/MatchingRepository.java:26-28 | the rows a derived query selects: exactly the table's rows that satisfy its condition, never more rows than the table has |
| MatchingRepository.Single | src/main/java/com/togedog/matching/repository/MatchingRepository.java:26-28 | a one-row query is absent iff no row matches, found only when the found row is the sole match, and non-unique iff two positions match |
| MatchingRepository.FilterHasTwo | src/main/java/com/togedog/matching/repository/MatchingRepository.java:26-28 | two rows passing the filter come from two distinct table positions |
| MatchingRepository.TwoHitsInFilter | src/main/java/com/togedog/matching/repository/MatchingRepository.java:26-28 | two matching table positions put two rows through the filter |
| MatchingRepository.FindByHostMemberAndMatchStatus | src/main/java/com/togedog/matching/repository/MatchingRepository.java:26 | the caller's row in the given status: absent, the unique one, or non-unique exactly when two exist |
| MatchingRepository.FindByHostEmailAndMatchStatus | src/main/java/com/togedog/matching/repository/MatchingRepository.java:27 | the same lookup by the host's email |
| MatchingRepository.FindByHostMember | src/main/java/com/togedog/matching/repository/MatchingRepository.java:28 | any row hosted by the member, whatever its status; non-unique exactly when the member hosts two rows |
| MatchingRepository.FindByHostMemberIdOrHostMemberId | src/main/java/com/togedog/matching/repository/MatchingRepository.java:30 | exactly the rows whose host id column is either id |
| MatchingRepository.FilterTwice | src/main/java/com/togedog/matching/service/MatchingService.java:86-92 | filtering the query's rows by a second condition gives exactly the table's rows that pass both, in table order |
| MatchingRepository.FindOngoingMatchBetweenMembers | src/main/java/com/togedog/matching/repository/MatchingRepository.java:17-24 | absent iff no row joins the two members in either role with an ongoing status name |
| MatchingRepository.OngoingMatchSymmetric | src/main/java/com/togedog/matching/repository/MatchingRepository.java:17-24 | the ongoing-match query does not depend on the order of the two members |
| MatchingRepository.NoOngoingStatus | src/main/java/com/togedog/matching/repository/MatchingRepository.java:20 | neither status name in the query is the stored name of any status |
| MatchingRepository.OngoingMatchNeverFound | src/main/java/com/togedog/matching/repository/MatchingRepository.java:17-24 | the ongoing-match query finds nothing on any table |
| Common.FindByEmail | src/main/java/com/togedog/matching/service/MatchingService.java:123-124 | `findByEmail` finds a member exactly when the email is registered, and then the registered member |
| MatchingService.ExtractMember | src/main/java/com/togedog/matching/service/MatchingService.java:121-125 | the principal resolves to its member, or MEMBER_NOT_FOUND exactly when it is not a member |
| MatchingService.SaveRow | src/main/java/com/togedog/matching/service/MatchingService.java:44-49 | a row with an id in use is merged over that row; otherwise it is appended under the next identity value, which then grows |
| MatchingService.CreateMatch | src/main/java/com/togedog/matching/service/MatchingService.java:33-53 | on success the caller hosts the returned row, which has the draft's coordinates, and the log gains exactly the save of that row, earlier entries unchanged; on failure nothing changes |
| MatchingService.UpdateMatch | src/main/java/com/togedog/matching/service/MatchingService.java:56-72 | on success the caller hosts the returned row, which has the requested status (HOSTING when none is requested), and no row is added; on failure nothing changes |
| MatchingService.Promoted | src/main/java/com/togedog/matching/service/MatchingService.java:88-92 | the batch is exactly the found rows that are not SUCCESS, in the order found, each set to SUCCESS; it is empty exactly when every found row already is SUCCESS |
| MatchingService.PromotionNeeded | src/main/java/com/togedog/matching/service/MatchingService.java:86-94 | the batch is empty exactly when every row hosted (by id column) by either member is already SUCCESS |
| MatchingService.UpdateMatchForCustomEvent | src/main/java/com/togedog/matching/service/MatchingService.java:85-97 | every row hosted by either member ends SUCCESS, whatever its status, every other row is untouched and no id is consumed; the state changes exactly when some such row was not SUCCESS, and then the only effect is the save of the promoted batch |
| MatchingService.FindMatches | src/main/java/com/togedog/matching/service/MatchingService.java:99-101 | a negative page or a size below 1 is rejected; otherwise at most `size` rows of the table |
| MatchingService.FindVerifiedMatchByEmail | src/main/java/com/togedog/matching/service/MatchingService.java:103-112 | a result is a HOSTING row with the email's member attached as host |
| MatchingService.FindVerifiedMatch | src/main/java/com/togedog/matching/service/MatchingService.java:114-119 | as written: a result is the only row the caller hosts, whatever its status |
| MatchingService.FindHostedMatch | src/main/java/com/togedog/matching/service/MatchingService.java:114-119 | as intended: a result is a HOSTING row the caller hosts |
| MatchingServiceProofs.HostingLookupUnique | src/main/java/com/togedog/matching/service/MatchingService.java:37 | under the state invariant the caller's HOSTING lookup is never non-unique |
| MatchingServiceProofs.HostingByEmailUnique | src/main/java/com/togedog/matching/service/MatchingService.java:106 | under the state invariant the HOSTING lookup by email is never non-unique |
| MatchingServiceProofs.MergeKeepsValid | src/main/java/com/togedog/matching/service/MatchingService.java:47-49 | saving a draft that carries an existing id, hosted by a member with no HOSTING row, keeps the invariant |
| MatchingServiceProofs.AppendKeepsValid | src/main/java/com/togedog/matching/service/MatchingService.java:47-49 | inserting a new row for a member with no HOSTING row keeps the invariant |
| MatchingServiceProofs.CreateMatchKeepsValid | src/main/java/com/togedog/matching/service/MatchingService.java:33-53 | `createMatch` keeps the invariant: increasing ids below the next identity value, one HOSTING row per host, registered hosts |
| MatchingServiceProofs.UpdateMatchKeepsValid | src/main/java/com/togedog/matching/service/MatchingService.java:56-72 | `updateMatch` keeps the invariant |
| MatchingServiceProofs.CustomEventKeepsValid | src/main/java/com/togedog/matching/service/MatchingService.java:85-97 | `updateMatchForCustomEvent` keeps the invariant |
| MatchingServiceProofs.UnknownCallerRejected | src/main/java/com/togedog/matching/service/MatchingService.java:121-125 | every authenticated operation fails with MEMBER_NOT_FOUND for a non-member and changes nothing |
| MatchingServiceProofs.CreateMatchMovesHosting | src/main/java/com/togedog/matching/service/MatchingService.java:36-44 | with a HOSTING row, `createMatch` changes only that row's coordinates and adds no row |
| MatchingServiceProofs.CreateMatchInserts | src/main/java/com/togedog/matching/service/MatchingService.java:45-52 | without one, it appends exactly the draft, under the next id, with the caller as host |
| MatchingServiceProofs.CreateTwiceKeepsOneHosting | src/main/java/com/togedog/matching/service/MatchingService.java:33-53 | two successive creates add one row and leave exactly one HOSTING row for the caller, at the second position |
| MatchingServiceProofs.UpdateMatchWithoutHosting | src/main/java/com/togedog/matching/service/MatchingService.java:58-59 | without a HOSTING row, `updateMatch` fails with MATCH_NOT_FOUND, publishes nothing and changes nothing |
| MatchingServiceProofs.UpdateMatchEffects | src/main/java/com/togedog/matching/service/MatchingService.java:56-72 | the requested status lands on the caller's row alone; a cancellation publishes the stand-by clean-up (member id) and then the marker clean-up (email) before the save |
| MatchingServiceProofs.CustomEventPromotes | src/main/java/com/togedog/matching/service/MatchingService.java:85-97 | the saved batch is exactly the table's rows hosted by either member that are not SUCCESS, in table order, each set to SUCCESS; nothing is saved exactly when there is no such row |
| MatchingServiceProofs.CustomEventIdempotent | src/main/java/com/togedog/matching/service/MatchingService.java:85-97 | repeating the custom-event update changes nothing more |
| MatchingServiceProofs.FindVerifiedMatchByEmailOrder | src/main/java/com/togedog/matching/service/MatchingService.java:103-112 | caller check first, then the HOSTING row, then the email's membership; under the invariant the HOSTING row comes back with its member attached |
| MatchingServiceProofs.FindMatchesDescending | src/main/java/com/togedog/matching/service/MatchingService.java:99-101 | page rows have strictly descending ids; element `i` is the row at descending position `page * size + i`, and the page length is the full window |
| MatchingServiceProofs.FindHostedMatchCorrect | src/main/java/com/togedog/matching/service/MatchingService.java:114-119 | under the invariant the intended lookup returns the caller's HOSTING row when there is one and MATCH_NOT_FOUND exactly when there is none |
| MatchingServiceProofs.FindVerifiedMatchTwoRows | src/main/java/com/togedog/matching/service/MatchingService.java:114-119 | as written, a caller who hosts two rows of any status gets a non-unique-result failure |
| MatchingServiceProofs.FindVerifiedMatchAfterCancel | src/main/java/com/togedog/matching/service/MatchingService.java:114-119 | after host-then-cancel, the as-written lookup returns the cancelled row where the intended one reports MATCH_NOT_FOUND |
| MatchingServiceProofs.FindVerifiedMatchAfterRecreate | src/main/java/com/togedog/matching/service/MatchingService.java:114-119 | after host, cancel and host again, the as-written lookup fails as non-unique where the intended one returns the new HOSTING row |
| KeyValueStore.Get | src/main/java/com/togedog/redis/LocationService.java:67 | GET sees a value exactly while the key is live |
| KeyValueStore.Set | src/main/java/com/togedog/redis/LocationService.java:45 | SET stores the value without expiry and leaves other keys alone |
| KeyValueStore.Expire | src/main/java/com/togedog/redis/LocationService.java:46 | EXPIRE gives a live key its deadline and does nothing to a missing one |
| KeyValueStore.Delete | src/main/java/com/togedog/redis/LocationService.java:86 | DEL removes the key and leaves other keys alone |
| KeyValueStore.PrefixGlob | src/main/java/com/togedog/map/controller/MarkerController.java:27 | a literal prefix followed by `*` matches exactly the keys that start with the prefix |
| KeyValueStore.Keys | src/main/java/com/togedog/redis/MarkerService.java:39-41 | KEYS lists exactly the live keys matching the pattern |
| LocalCache.Put | src/main/java/com/togedog/config/CacheConfig.java:18-22 | a written value, `null` included, is a hit from the write instant for exactly ten minutes, whatever the key held before; other keys are untouched |
| LocalCache.Evict | src/main/java/com/togedog/redis/LocationService.java:79 | an evicted key is gone and other keys are untouched |
| LocationService.LocationKey | src/main/java/com/togedog/redis/LocationService.java:36-46 | both tiers key a member's location as `location:` followed by the email |
| LocationService.LocationKeyInjective | src/main/java/com/togedog/redis/LocationService.java:36-46 | distinct emails give distinct location keys |
| LocationService.FinalKey | src/main/java/com/togedog/redis/LocationService.java:125 | the key `getLocation` and `deleteLocation` address is the given prefix, a colon, then the email |
| LocationService.MemoKey | src/main/java/com/togedog/redis/LocationService.java:122 | `getLocation` memoises under `userLocation:` followed by the store key it reads |
| LocationService.DecodeLocation | src/main/java/com/togedog/redis/LocationService.java:70 | a stored value reads as a location exactly when a location wrote it |
| LocationService.LocationRoundTrip | src/main/java/com/togedog/redis/LocationService.java:44 | a serialised location reads back as itself |
| LocationService.SaveLocationCache | src/main/java/com/togedog/redis/LocationService.java:36-56 | the location always goes into the in-process tier as a fresh ten-minute entry, other in-process keys and the memo cache untouched; the store gets it with the 10000-second expiry, without expiry, or not at all, depending on serialisation and on how many of its two commands get through |
| LocationService.GetLocationCache | src/main/java/com/togedog/redis/LocationService.java:59-77 | an in-process hit is returned as is; on a miss the store value is returned iff live and a location, and the result, `null` included, is cached; a store failure escapes and changes nothing |
| LocationService.DeleteLocationCache | src/main/java/com/togedog/redis/LocationService.java:79-91 | the in-process entry is always evicted; the store key goes iff its command gets through |
| LocationService.GetLocation | src/main/java/com/togedog/redis/LocationService.java:122-143 | a memoised hit is returned; otherwise absent gives `null` unmemoised, a location is memoised and returned, and an undecodable value or a store failure throws and changes nothing |
| LocationService.DeleteLocation | src/main/java/com/togedog/redis/LocationService.java:154-163 | as written: a store failure throws and changes nothing; otherwise the store key goes, the memo entry under `<key>:<email>` is evicted and the in-process location tier is untouched |
| LocationService.DeleteLocationEvictingMemo | src/main/java/com/togedog/redis/LocationService.java:154-163 | as intended: a store failure throws and changes nothing; otherwise exactly the store key and `getLocation`'s memo entry go, and nothing else changes |
| LocationServiceProofs.SaveThenLoad | src/main/java/com/togedog/redis/LocationService.java:36-77 | within ten minutes a load after a save returns the saved location, whatever happened to the store write |
| LocationServiceProofs.MissCachesNull | src/main/java/com/togedog/redis/LocationService.java:59-77 | a miss caches `null`, hiding a location that reaches the store later until the entry expires |
| LocationServiceProofs.DeleteThenLoad | src/main/java/com/togedog/redis/LocationService.java:79-91 | after a delete that reached the store a load finds nothing; if the store command failed, the next load brings the location back |
| LocationServiceProofs.MemoKeyIsNotFinalKey | src/main/java/com/togedog/redis/LocationService.java:122-157 | the key `getLocation` memoises under differs from the key `deleteLocation` evicts |
| LocationServiceProofs.StaleMemoSurvivesDelete | src/main/java/com/togedog/redis/LocationService.java:122-163 | as written, after a lookup and a successful delete the same lookup keeps returning the deleted location |
| LocationServiceProofs.DeleteThenGetLocationAbsent | src/main/java/com/togedog/redis/LocationService.java:122-163 | with the intended eviction, the lookup after a successful delete finds nothing, or fails if the store is unreachable |
| MarkerService.DecodeMarker | src/main/java/com/togedog/redis/MarkerService.java:30 | only a stored marker document decodes as a marker |
| MarkerService.MarkerRoundTrip | src/main/java/com/togedog/redis/MarkerService.java:45-46 | a serialised marker reads back as itself |
| MarkerService.GetMarker | src/main/java/com/togedog/redis/MarkerService.java:22-37 | `null` for an absent or undecodable value, else the stored coordinates with the key as email; throws iff the store fails |
| MarkerService.GetKeysByPattern | src/main/java/com/togedog/redis/MarkerService.java:39-41 | the live keys matching the pattern; throws iff the store fails |
| MarkerService.DeleteMarker | src/main/java/com/togedog/redis/MarkerService.java:56-60 | on success the key is no longer live, an absent key leaves the store alone, other keys are untouched |
| MarkerService.SaveMarker | src/main/java/com/togedog/redis/MarkerService.java:43-54 | the save succeeds exactly when serialisation fails (swallowed, nothing changes) or the link serves every command it issues; a completed save leaves the key holding exactly the new marker with a three-day expiry; other keys are untouched |
| MarkerProofs.SaveThenGet | src/main/java/com/togedog/redis/MarkerService.java:22-54 | a saved marker reads back within three days |
| MarkerProofs.SavedMarkerExpires | src/main/java/com/togedog/redis/MarkerService.java:20 | three days after the save the marker reads as `null` |
| MarkerProofs.SaveTwiceOverwrites | src/main/java/com/togedog/redis/MarkerService.java:43-54 | saving twice leaves the store as saving only the second marker would |
| MarkerProofs.EncodeFailureKeepsOldMarker | src/main/java/com/togedog/redis/MarkerService.java:43-54 | a swallowed serialisation failure keeps the previous marker |
| MarkerProofs.DeleteThenGet | src/main/java/com/togedog/redis/MarkerService.java:56-60 | after a completed delete the key reads as `null` and every other key as before |
| MarkerProofs.DeleteMarkerIdempotent | src/main/java/com/togedog/redis/MarkerService.java:56-60 | deleting twice equals deleting once |
| MarkerProofs.ListedEmailIsKey | src/main/java/com/togedog/redis/MarkerService.java:22-37 | a saved marker stores the owner's email but reads back with `marker:<email>` in its email field |
| MarkerProofs.SavedMarkerIsListed | src/main/java/com/togedog/map/controller/MarkerController.java:24-51 | a member's saved marker is among the keys the next listing enumerates |
| MarkerController.MarkerKey | src/main/java/com/togedog/map/controller/MarkerController.java:45 | the key is `marker:` followed by the email |
| MarkerController.MarkerKeyInjective | src/main/java/com/togedog/map/controller/MarkerController.java:45 | distinct emails have distinct marker keys |
| MarkerController.SaveMarkerFor | src/main/java/com/togedog/map/controller/MarkerController.java:38-51 | a completed save that serialised leaves the principal's key holding the principal's marker with a three-day expiry, and a working store always completes it; no other key changes |
| MarkerController.MarkerPatternSelectsMarkerKeys | src/main/java/com/togedog/map/controller/MarkerController.java:27 | `marker:*` lists exactly the live keys starting with `marker:` |
| MarkerController.Enumerate | src/main/java/com/togedog/map/controller/MarkerController.java:28 | the key set is walked once per key, no key twice |
| MarkerController.ReadMarkers | src/main/java/com/togedog/map/controller/MarkerController.java:28-30 | each key yields its `getMarker` result, `null` included, in walk order |
| MarkerController.GetMarkers | src/main/java/com/togedog/map/controller/MarkerController.java:24-32 | one element per live `marker:` key, each that key's `getMarker` result; with a working store it always succeeds |
| FriendMapper.FriendsToResponse | src/main/java/com/togedog/friend/mapper/FriendMapper.java:18-29 | one response per member in order, carrying its email, name, nickname and phone; the loop builds exactly the list response |
| FriendMapper.ToResponses | src/main/java/com/togedog/friend/mapper/FriendMapper.java:18-29 | the response list has one entry per member, each the member's own response |
| FriendMapper.ToResponsesAppend | src/main/java/com/togedog/friend/mapper/FriendMapper.java:18-29 | the response of a concatenated list is the concatenation of the responses |

## Left out

- HTTP binding, authentication plumbing and response wrapping are not modelled. The controllers are reduced to the key scheme and the calls they make, and the authenticated principal is a plain email.
- The global exception advice is not modelled. Failures are returned as `Result` values, not HTTP statuses.
- JSON serialisation is abstract. A document decodes only as the type that wrote it. The `Location` and `Member` class bodies are not part of this model.
- Coordinates are opaque values (`Coord`). The model does no floating-point arithmetic.
- Caffeine's `maximumSize(1000)` eviction is not modelled. The in-process tier never evicts by size.
- `userLocationCache`: the static Caffeine cache manager declares only `locationCache`. The model treats `userLocationCache` as if it were declared. Otherwise every `getLocation` and `deleteLocation` call would fail to resolve its cache.
- The Redis cache manager in `redis/tool/CacheConfig.java` is not modelled. No operation in the core uses it.
- Transactions, isolation and concurrent requests are not modelled. Each operation is one atomic step, so races between two instances sharing the store are not captured.
- The listeners of the published events are not modelled. Only the publication and its order are recorded.
- `publishMatchCancelEvents` is not modelled separately. It is an unused private helper; `updateMatch` publishes the same two events inline, and that is modelled.
- Status descriptions are display text and are not modelled.
- Paging returns a plain sequence, not a `Page` object. Invalid page arguments are an error result.
- Glob character classes (`[...]`) and `\` escapes are not modelled. Only `*` and `?` are.
- The member side of `Matching.addMember` (`Member.addMatching`) is not part of this model. It is assumed to append.
- Matchings.AddMember: records are values, not objects. When the member's list already holds the record, that entry keeps its old host, where in Java the entry is the same object and shows the new host.
- Matchings.AddMatchingStandBy: the stand-by side (`MatchingStandBy.addMatching`) is not part of this model. It is assumed only to set the back-link to the record, without adding the stand-by to the record's list a second time.
- The stand-by back-link is the id of the record, not an object reference.
- `guestMember`, which the entity declares twice, is modelled as one field.
- Logging and printed diagnostics are not modelled.
- A value stored as something other than a string, which `getMarker` and `getLocationCache` would fail to cast, is not modelled.
- A failing store command is taken not to have reached the store. A command that the server applied before the client timed out is not modelled. This matters where a failure is swallowed (`saveLocationCache`, `deleteLocationCache`): the `DeleteLocationCache` contract and the failure case of `DeleteThenLoad` rest on it.

## Findings

| source | as written | input that shows it | evidently intended | confidence | as-written member | corrected member |
|---|---|---|---|---|---|---|
| src/main/java/com/togedog/matching/service/MatchingService.java:117 | the caller's own match is looked up with `findByHostMember`, which ignores the status | a member hosts a match, cancels it, then hosts again: the lookup matches both rows and fails as non-unique; right after the cancellation it returns the cancelled row | the caller's HOSTING row, as every other lookup in the service uses | high (not executed) | MatchingService.FindVerifiedMatch | MatchingService.FindHostedMatch |
| src/main/java/com/togedog/redis/LocationService.java:154 | `deleteLocation` evicts the memo key `<locationKey>:<email>`, while `getLocation` memoises under `userLocation:<locationKey>:<email>` | with `userLocationCache` resolvable: look up a location (memoised), delete it (store key removed), look it up again within the expiry: the deleted location is returned. With the shipped cache manager, which declares only `locationCache`, both calls fail to resolve that cache first (see "## Left out") | evict the key `getLocation` memoises under | medium (not executed) | LocationService.DeleteLocation | LocationService.DeleteLocationEvictingMemo |

Proofs of the findings:

- `MatchingServiceProofs.FindVerifiedMatchAfterRecreate` and `MatchingServiceProofs.FindVerifiedMatchAfterCancel` show the first finding on the as-written member. `MatchingServiceProofs.FindHostedMatchCorrect` proves the corrected member.
- `LocationServiceProofs.StaleMemoSurvivesDelete` shows the second finding on the as-written member. `LocationServiceProofs.DeleteThenGetLocationAbsent` proves the corrected member.

=== FILE: common.dfy ===
/** Shared vocabulary: optional values, results, coordinates and members. */
module Common {

  /** A value that may be missing; `None` stands for Java's `null`. */
  datatype Option<+T> = None | Some(value: T)

  /** The outcome of an operation that may throw: `Err` carries the exception kind. */
  datatype Result<+T, +E> = Ok(value: T) | Err(error: E)

  /** A `double` coordinate, kept opaque: the model never does arithmetic on it,
      so it is represented by the raw 64-bit pattern of the value. */
  datatype Coord = Coord(raw: int)

  /** A registered member, with the fields the core reads. */
  datatype Member = Member(memberId: nat, email: string, name: string, nickName: string, phone: string)

  /** A member directory keyed by email: every entry is filed under its own email,
      and two entries never share a member id. */
  ghost predicate ValidDirectory(directory: map<string, Member>) {
    && (forall e :: e in directory ==> directory[e].email == e)
    && (forall e1, e2 :: e1 in directory && e2 in directory && e1 != e2 ==>
          directory[e1].memberId != directory[e2].memberId)
  }

  /** `MemberRepository.findByEmail`. */
  function FindByEmail(directory: map<string, Member>, email: string): (r: Option<Member>)
    ensures r.Some? <==> email in directory
    ensures r.Some? ==> r.value == directory[email]
  {
    if email in directory then Some(directory[email]) else None
  }
}

=== FILE: friend_mapper.dfy ===
/** Turning a member list into the friend-list response. */
module FriendMapper {
  import opened Common

  /** One entry of the friend-list response. */
  datatype FriendResponse = FriendResponse(friendEmail: string, friendName: string, friendNickName: string, friendPhone: string)

  /** The response entry for one member: its four contact fields. */
  function ToResponse(m: Member): FriendResponse {
    FriendResponse(m.email, m.name, m.nickName, m.phone)
  }

  /** The response for a whole list, entry by entry in the list's order. */
  function ToResponses(friends: seq<Member>): (r: seq<FriendResponse>)
    ensures |r| == |friends|
    ensures forall i :: 0 <= i < |friends| ==> r[i] == ToResponse(friends[i])
  {
    if friends == [] then [] else [ToResponse(friends[0])] + ToResponses(friends[1..])
  }

  /** The response of a concatenation is the concatenation of the responses. */
  lemma {:induction false} ToResponsesAppend(a: seq<Member>, b: seq<Member>)
    ensures ToResponses(a + b) == ToResponses(a) + ToResponses(b)
  {
    if a == [] {
      assert a + b == b;
    } else {
      assert (a + b)[1..] == a[1..] + b;
      ToResponsesAppend(a[1..], b);
    }
  }

  /** `friendsToResponse`: one entry per member, in the list's order, carrying
      the member's email, name, nickname and phone; an empty list gives an empty
      response. */
  method FriendsToResponse(friends: seq<Member>) returns (result: seq<FriendResponse>)
    ensures |result| == |friends|
    ensures forall i :: 0 <= i < |friends| ==>
      && result[i].friendEmail == friends[i].email
      && result[i].friendName == friends[i].name
      && result[i].friendNickName == friends[i].nickName
      && result[i].friendPhone == friends[i].phone
    ensures result == ToResponses(friends)
  {
    result := [];
    for i := 0 to |friends|
      invariant |result| == i
      invariant forall j :: 0 <= j < i ==> result[j] == ToResponse(friends[j])
    {
      result := result + [ToResponse(friends[i])];
    }
  }
}

=== FILE: local_cache.dfy ===
/** The in-process cache tier (Caffeine behind Spring's cache annotations):
    entries expire a fixed time after they were written, and a cached value may
    be `null`, since the cache manager allows null values. */
module LocalCache {
  import opened Common

  /** Entries expire ten minutes after write (`expireAfterWrite(10, MINUTES)`). */
  const ExpireAfterWriteSeconds: nat := 600

  datatype LocalEntry<+V> = LocalEntry(value: Option<V>, writtenAt: nat)

  type Cache<V> = map<string, LocalEntry<V>>

  /** The key holds an entry written less than ten minutes before `now`. */
  predicate Hit<V>(cache: Cache<V>, key: string, now: nat) {
    key in cache && cache[key].writtenAt <= now < cache[key].writtenAt + ExpireAfterWriteSeconds
  }

  /** A write (`@CachePut`, or the back-fill after a `@Cacheable` miss): the
      written value is served from the write instant for exactly ten minutes,
      whatever the key held before. */
  function Put<V>(cache: Cache<V>, key: string, value: Option<V>, now: nat): (r: Cache<V>)
    ensures key in r && r[key].value == value
    ensures forall t: nat :: Hit(r, key, t) <==> now <= t < now + ExpireAfterWriteSeconds
    ensures forall k :: k != key ==> (k in r <==> k in cache) && (k in r ==> r[k] == cache[k])
  {
    cache[key := LocalEntry(value, now)]
  }

  /** `@CacheEvict`. */
  function Evict<V>(cache: Cache<V>, key: string): (r: Cache<V>)
    ensures key !in r
    ensures forall k :: k != key ==> (k in r <==> k in cache) && (k in r ==> r[k] == cache[k])
  {
    cache - {key}
  }
}

=== FILE: location_service.dfy ===
/** The two-tier location cache: a member's last reported coordinates, kept in
    the in-process tier (`locationCache`) and in the distributed store under
    `location:<email>`, plus the store-only lookup by an arbitrary key prefix
    memoised in `userLocationCache`. */
module LocationService {
  import opened Common
  import opened KeyValueStore
  import opened LocalCache

  /** Store entries written by `saveLocationCache` expire after 10000 seconds. */
  const TtlSeconds: nat := 10000

  datatype Location = Location(latitude: Coord, longitude: Coord)

  /** The failures that escape an operation: an unclassified store exception,
      or the service's own `CacheOperationException`. */
  datatype CacheFailure = StoreFailure | CacheOperation

  /** Both in-process caches and the distributed store. */
  datatype LocState = LocState(locationCache: Cache<Location>, userLocationCache: Cache<Location>, store: Store)

  datatype LocReply<+T> = LocReply(state: LocState, out: Result<T, CacheFailure>)

  /** The key both tiers use for a member's location: `location:` followed by
      the email. */
  function LocationKey(email: string): (k: string)
    ensures |k| == 9 + |email| && k[..9] == "location:" && k[9..] == email
  {
    "location:" + email
  }

  /** Distinct members have distinct location keys. */
  lemma LocationKeyInjective(a: string, b: string)
    requires LocationKey(a) == LocationKey(b)
    ensures a == b
  {
    assert a == LocationKey(a)[9..];
  }

  /** The store key `getLocation` and `deleteLocation` address: the given key
      prefix, a colon, then the email. */
  function FinalKey(locationKey: string, email: string): (k: string)
    ensures |k| == |locationKey| + 1 + |email|
    ensures k[..|locationKey|] == locationKey && k[|locationKey|] == ':' && k[|locationKey| + 1..] == email
  {
    locationKey + ":" + email
  }

  /** The key under which `getLocation` memoises its result: `userLocation:`
      in front of the store key it reads. */
  function MemoKey(locationKey: string, email: string): (k: string)
    ensures |k| == 13 + |FinalKey(locationKey, email)|
    ensures k[..13] == "userLocation:" && k[13..] == FinalKey(locationKey, email)
  {
    "userLocation:" + locationKey + ":" + email
  }

  function EncodeLocation(l: Location): Doc {
    LocationDoc(l.latitude, l.longitude)
  }

  /** Reading a stored document as a `Location`; anything else fails to decode. */
  function DecodeLocation(d: Doc): (r: Option<Location>)
    ensures r.Some? <==> d.LocationDoc?
  {
    match d
    case LocationDoc(lat, lon) => Some(Location(lat, lon))
    case _ => None
  }

  /** Decoding inverts encoding. */
  lemma LocationRoundTrip(l: Location)
    ensures DecodeLocation(EncodeLocation(l)) == Some(l)
  {
  }

  /** `saveLocationCache`: the location always goes into the in-process tier;
      the store write (SET, then EXPIRE) is attempted and any failure is
      swallowed. `encodeFails` says serialisation throws; the link says how many
      of the two store commands get through. */
  function SaveLocationCache(s: LocState, now: nat, email: string, latitude: Coord, longitude: Coord,
                             encodeFails: bool, link: Link): (r: (LocState, Location))
    ensures r.1.latitude == latitude && r.1.longitude == longitude
    ensures r.0.locationCache == Put(s.locationCache, LocationKey(email), Some(r.1), now)
    ensures r.0.userLocationCache == s.userLocationCache
    ensures !encodeFails && Serves(link, 0) && Serves(link, 1) ==>
      r.0.store == s.store[LocationKey(email) := Entry(LocationDoc(latitude, longitude), Some(now + TtlSeconds))]
    ensures !encodeFails && Serves(link, 0) && !Serves(link, 1) ==>
      r.0.store == s.store[LocationKey(email) := Entry(LocationDoc(latitude, longitude), None)]
    ensures encodeFails || !Serves(link, 0) ==> r.0.store == s.store
  {
    var loc := Location(latitude, longitude);
    var key := LocationKey(email);
    var store' :=
      if encodeFails || !Serves(link, 0) then s.store
      else
        var written := Set(s.store, key, EncodeLocation(loc));
        if Serves(link, 1) then Expire(written, key, TtlSeconds, now) else written;
    (s.(locationCache := Put(s.locationCache, key, Some(loc), now), store := store'), loc)
  }

  /** `getLocationCache`: an in-process hit is returned as is (possibly a cached
      `null`). On a miss the store is read: an absent key or an undecodable value
      gives `null`, and the result, `null` included, is back-filled. A store
      exception is not caught and leaves both tiers as they were. */
  function GetLocationCache(s: LocState, now: nat, email: string, link: Link): (r: LocReply<Option<Location>>)
    ensures Hit(s.locationCache, LocationKey(email), now) ==>
      r == LocReply(s, Ok(s.locationCache[LocationKey(email)].value))
    ensures !Hit(s.locationCache, LocationKey(email), now) && !Serves(link, 0) ==> r == LocReply(s, Err(StoreFailure))
    ensures !Hit(s.locationCache, LocationKey(email), now) && Serves(link, 0) ==>
      && r.out.Ok?
      && (r.out.value.Some? <==> Live(s.store, LocationKey(email), now) && s.store[LocationKey(email)].doc.LocationDoc?)
      && (r.out.value.Some? ==> EncodeLocation(r.out.value.value) == s.store[LocationKey(email)].doc)
      && r.state == s.(locationCache := Put(s.locationCache, LocationKey(email), r.out.value, now))
  {
    var key := LocationKey(email);
    if Hit(s.locationCache, key, now) then LocReply(s, Ok(s.locationCache[key].value))
    else if !Serves(link, 0) then LocReply(s, Err(StoreFailure))
    else
      var found := match Get(s.store, key, now)
        case None => None
        case Some(d) => DecodeLocation(d);
      LocReply(s.(locationCache := Put(s.locationCache, key, found, now)), Ok(found))
  }

  /** `deleteLocationCache`: the in-process entry is always evicted; the store
      key is deleted when the command gets through, and a failure is swallowed. */
  function DeleteLocationCache(s: LocState, email: string, link: Link): (r: LocState)
    ensures LocationKey(email) !in r.locationCache
    ensures r.locationCache == Evict(s.locationCache, LocationKey(email))
    ensures r.userLocationCache == s.userLocationCache
    ensures Serves(link, 0) ==> r.store == Delete(s.store, LocationKey(email))
    ensures !Serves(link, 0) ==> r.store == s.store
  {
    var key := LocationKey(email);
    s.(locationCache := Evict(s.locationCache, key),
       store := if Serves(link, 0) then Delete(s.store, key) else s.store)
  }

  /** `getLocation`: a memoised result is returned as is; otherwise the store
      key `<locationKey>:<email>` is read. An absent key gives `null` (not
      memoised); a decodable value is memoised and returned; an undecodable value
      or a store failure throws `CacheOperationException`. */
  function GetLocation(s: LocState, now: nat, locationKey: string, email: string, link: Link): (r: LocReply<Option<Location>>)
    ensures Hit(s.userLocationCache, MemoKey(locationKey, email), now) ==>
      r == LocReply(s, Ok(s.userLocationCache[MemoKey(locationKey, email)].value))
    ensures !Hit(s.userLocationCache, MemoKey(locationKey, email), now) ==>
      && (r.out.Err? <==> !Serves(link, 0) || (Live(s.store, FinalKey(locationKey, email), now)
                                                && !s.store[FinalKey(locationKey, email)].doc.LocationDoc?))
      && (r.out.Err? ==> r == LocReply(s, Err(CacheOperation)))
      && (r.out == Ok(None) <==> Serves(link, 0) && !Live(s.store, FinalKey(locationKey, email), now))
      && (r.out == Ok(None) ==> r.state == s)
      && (r.out.Ok? && r.out.value.Some? ==>
            && EncodeLocation(r.out.value.value) == s.store[FinalKey(locationKey, email)].doc
            && r.state == s.(userLocationCache := Put(s.userLocationCache, MemoKey(locationKey, email), r.out.value, now)))
  {
    var memo := MemoKey(locationKey, email);
    if Hit(s.userLocationCache, memo, now) then LocReply(s, Ok(s.userLocationCache[memo].value))
    else if !Serves(link, 0) then LocReply(s, Err(CacheOperation))
    else
      match Get(s.store, FinalKey(locationKey, email), now)
      case None => LocReply(s, Ok(None))
      case Some(d) =>
        match DecodeLocation(d)
        case None => LocReply(s, Err(CacheOperation))
        case Some(l) => LocReply(s.(userLocationCache := Put(s.userLocationCache, memo, Some(l), now)), Ok(Some(l)))
  }

  /** `deleteLocation` as written: deletes the store key and, only when that
      succeeds, evicts the memo entry keyed `<locationKey>:<email>`, which is not
      the key `getLocation` memoises under. A store failure throws
      `CacheOperationException`. */
  function DeleteLocation(s: LocState, locationKey: string, email: string, link: Link): (r: LocReply<()>)
    ensures r.out.Err? <==> !Serves(link, 0)
    ensures r.out.Err? ==> r == LocReply(s, Err(CacheOperation))
    ensures r.out.Ok? ==> FinalKey(locationKey, email) !in r.state.store
    ensures r.out.Ok? ==> r.state.store == Delete(s.store, FinalKey(locationKey, email))
    ensures r.out.Ok? ==> r.state.userLocationCache == Evict(s.userLocationCache, FinalKey(locationKey, email))
    ensures r.out.Ok? ==> r.state.locationCache == s.locationCache
  {
    if !Serves(link, 0) then LocReply(s, Err(CacheOperation))
    else
      var key := FinalKey(locationKey, email);
      LocReply(s.(store := Delete(s.store, key), userLocationCache := Evict(s.userLocationCache, key)), Ok(()))
  }

  /** `deleteLocation` as evidently intended: the eviction uses the memo key of
      `getLocation`. */
  function DeleteLocationEvictingMemo(s: LocState, locationKey: string, email: string, link: Link): (r: LocReply<()>)
    ensures r.out.Err? <==> !Serves(link, 0)
    ensures r.out.Err? ==> r == LocReply(s, Err(CacheOperation))
    ensures r.out.Ok? ==> FinalKey(locationKey, email) !in r.state.store
    ensures r.out.Ok? ==> MemoKey(locationKey, email) !in r.state.userLocationCache
    ensures r.out.Ok? ==> r.state == s.(store := Delete(s.store, FinalKey(locationKey, email)),
                                        userLocationCache := Evict(s.userLocationCache, MemoKey(locationKey, email)))
  {
    if !Serves(link, 0) then LocReply(s, Err(CacheOperation))
    else
      LocReply(s.(store := Delete(s.store, FinalKey(locationKey, email)),
                  userLocationCache := Evict(s.userLocationCache, MemoKey(locationKey, email))), Ok(()))
  }
}

=== FILE: location_service_proofs.dfy ===
/** Properties of the location cache that span several calls. */
module LocationServiceProofs {
  import opened Common
  import opened KeyValueStore
  import opened LocalCache
  import opened LocationService

  /** A save followed by a load within the in-process expiry returns the saved
      coordinates from the in-process tier and changes nothing, however the
      store write went (serialisation failure or a dropped connection
      included) and whatever state the store is in for the load. */
  lemma SaveThenLoad(s: LocState, t0: nat, t1: nat, email: string, latitude: Coord, longitude: Coord,
                     encodeFails: bool, saveLink: Link, loadLink: Link)
    requires t0 <= t1 < t0 + ExpireAfterWriteSeconds
    ensures var s1 := SaveLocationCache(s, t0, email, latitude, longitude, encodeFails, saveLink).0;
      GetLocationCache(s1, t1, email, loadLink) == LocReply(s1, Ok(Some(Location(latitude, longitude))))
  {
  }

  /** A miss on both tiers caches `null`: a location that reaches the store
      afterwards (written by another instance) stays invisible to this instance
      until the cached `null` expires. */
  lemma MissCachesNull(s: LocState, t0: nat, t1: nat, email: string, link: Link, later: Link, doc: Doc)
    requires !Hit(s.locationCache, LocationKey(email), t0) && Serves(link, 0)
    requires !Live(s.store, LocationKey(email), t0)
    requires t0 <= t1 < t0 + ExpireAfterWriteSeconds
    ensures var r := GetLocationCache(s, t0, email, link);
      && r.out == Ok(None)
      && GetLocationCache(r.state.(store := Set(r.state.store, LocationKey(email), doc)), t1, email, later).out == Ok(None)
  {
  }

  /** After `deleteLocationCache` whose store command got through, a load finds
      nothing in either tier. If the store command failed, the failure was
      swallowed and the next load brings the deleted location back from the
      store. */
  lemma DeleteThenLoad(s: LocState, t: nat, email: string, deleteLink: Link, loadLink: Link)
    requires Serves(loadLink, 0)
    ensures var s1 := DeleteLocationCache(s, email, deleteLink);
      var r := GetLocationCache(s1, t, email, loadLink);
      && (Serves(deleteLink, 0) ==> r.out == Ok(None))
      && (!Serves(deleteLink, 0) && Live(s.store, LocationKey(email), t) && s.store[LocationKey(email)].doc.LocationDoc? ==>
            r.out == Ok(DecodeLocation(s.store[LocationKey(email)].doc)))
  {
    var s1 := DeleteLocationCache(s, email, deleteLink);
    assert !Hit(s1.locationCache, LocationKey(email), t);
  }

  /** The memo key and the store key of one lookup differ. */
  lemma MemoKeyIsNotFinalKey(locationKey: string, email: string)
    ensures MemoKey(locationKey, email) != FinalKey(locationKey, email)
  {
    assert |MemoKey(locationKey, email)| == |FinalKey(locationKey, email)| + 13;
  }

  /** As written, `deleteLocation` evicts a key `getLocation` never memoises
      under: after a lookup, a successful delete removes the store key, yet the
      same lookup keeps returning the deleted location until the memo expires. */
  lemma StaleMemoSurvivesDelete(s: LocState, t0: nat, t1: nat, locationKey: string, email: string, later: Link)
    requires !Hit(s.userLocationCache, MemoKey(locationKey, email), t0)
    requires Live(s.store, FinalKey(locationKey, email), t0) && s.store[FinalKey(locationKey, email)].doc.LocationDoc?
    requires t0 <= t1 < t0 + ExpireAfterWriteSeconds
    ensures var r1 := GetLocation(s, t0, locationKey, email, Up);
      var r2 := DeleteLocation(r1.state, locationKey, email, Up);
      && r1.out.Ok? && r1.out.value.Some?
      && r2.out.Ok?
      && !Live(r2.state.store, FinalKey(locationKey, email), t1)
      && GetLocation(r2.state, t1, locationKey, email, later).out == r1.out
  {
    MemoKeyIsNotFinalKey(locationKey, email);
  }

  /** With the eviction keyed as `getLocation` memoises, a successful delete is
      seen by the next lookup: it finds nothing, or fails if the store is
      unreachable, at any later time. */
  lemma DeleteThenGetLocationAbsent(s: LocState, t: nat, locationKey: string, email: string, deleteLink: Link, later: Link)
    requires Serves(deleteLink, 0)
    ensures var r := DeleteLocationEvictingMemo(s, locationKey, email, deleteLink);
      && r.out.Ok?
      && GetLocation(r.state, t, locationKey, email, later).out == (if Serves(later, 0) then Ok(None) else Err(CacheOperation))
  {
  }
}

=== FILE: marker_controller.dfy ===
/** The marker endpoints' logic, without the HTTP binding: the key scheme for a
    member's marker, saving under it, and listing every marker. */
module MarkerController {
  import opened Common
  import opened KeyValueStore
  import opened MarkerService

  const MarkerPrefix: string := "marker:"

  /** The pattern the listing enumerates. */
  const MarkerPattern: string := "marker:*"

  /** A member's marker key: `marker:` followed by the member's email. */
  function MarkerKey(email: string): (k: string)
    ensures |k| == |MarkerPrefix| + |email| && k[..|MarkerPrefix|] == MarkerPrefix && k[|MarkerPrefix|..] == email
  {
    MarkerPrefix + email
  }

  /** Distinct members have distinct marker keys. */
  lemma MarkerKeyInjective(a: string, b: string)
    requires MarkerKey(a) == MarkerKey(b)
    ensures a == b
  {
    assert a == MarkerKey(a)[|MarkerPrefix|..];
  }

  /** Saving the principal's marker: the key is built from the principal's
      email, and the principal's email is the stored owner. */
  function SaveMarkerFor(store: Store, now: nat, principal: string, latitude: Coord, longitude: Coord,
                         encodeFails: bool, link: Link): (r: Written)
    ensures !encodeFails && link.Up? ==> r.out.Ok?
    ensures r.out.Ok? && !encodeFails ==>
      && MarkerKey(principal) in r.store
      && r.store[MarkerKey(principal)] == Entry(MarkerDoc(principal, latitude, longitude), Some(now + MarkerTtlSeconds))
    ensures forall k :: k != MarkerKey(principal) ==> (k in r.store <==> k in store) && (k in r.store ==> r.store[k] == store[k])
  {
    SaveMarker(store, now, MarkerKey(principal), latitude, longitude, principal, encodeFails, link)
  }

  /** The keys the listing enumerates are exactly the live keys that start
      with `marker:`. */
  lemma MarkerPatternSelectsMarkerKeys(store: Store, now: nat, k: string)
    ensures k in Keys(store, MarkerPattern, now) <==> Live(store, k, now) && |MarkerPrefix| <= |k| && k[..|MarkerPrefix|] == MarkerPrefix
  {
    assert MarkerPattern == MarkerPrefix + "*";
    PrefixGlob(MarkerPrefix, k);
  }

  /** Every marker read so far is the `getMarker` result for its key, each key
      read on its own command, after the listing command. */
  ghost predicate ReadsMatch(store: Store, now: nat, link: Link, order: seq<string>, markers: seq<Option<Marker>>) {
    |markers| == |order| && forall i :: 0 <= i < |order| ==> GetMarker(store, now, order[i], Shift(link, i + 1)) == Ok(markers[i])
  }

  /** A key not yet read extends a duplicate-free order to a duplicate-free one. */
  lemma DistinctExtend(order: seq<string>, k: string)
    requires forall i, j :: 0 <= i < j < |order| ==> order[i] != order[j]
    requires k !in order
    ensures forall i, j :: 0 <= i < j < |order + [k]| ==> (order + [k])[i] != (order + [k])[j]
  {
  }

  /** The iteration order of a key set: each key exactly once. */
  method Enumerate(keys: set<string>) returns (order: seq<string>)
    ensures |order| == |keys|
    ensures forall i, j :: 0 <= i < j < |order| ==> order[i] != order[j]
    ensures forall k :: k in order <==> k in keys
  {
    order := [];
    var remaining := keys;
    while remaining != {}
      invariant |order| + |remaining| == |keys|
      invariant forall k :: k in keys <==> k in order || k in remaining
      invariant forall k :: k in order ==> k !in remaining
      invariant forall i, j :: 0 <= i < j < |order| ==> order[i] != order[j]
      decreases remaining
    {
      var k :| k in remaining;
      DistinctExtend(order, k);
      order := order + [k];
      remaining := remaining - {k};
    }
  }

  /** Reads the keys with `getMarker` in order, key `i` on the link as it
      stands after `i + 1` commands. The first failing read escapes. */
  method ReadMarkers(store: Store, now: nat, link: Link, order: seq<string>)
    returns (r: Result<seq<Option<Marker>>, StoreException>)
    ensures link.Up? ==> r.Ok?
    ensures r.Ok? ==> ReadsMatch(store, now, link, order, r.value)
  {
    var markers: seq<Option<Marker>> := [];
    for i := 0 to |order|
      invariant |markers| == i
      invariant forall j :: 0 <= j < i ==> GetMarker(store, now, order[j], Shift(link, j + 1)) == Ok(markers[j])
    {
      var got := GetMarker(store, now, order[i], Shift(link, i + 1));
      if got.Err? {
        return Err(StoreException);
      }
      markers := markers + [got.value];
    }
    r := Ok(markers);
  }

  /** `getMarkers`: lists the keys matching `marker:*` (the first store
      command) and reads each one. The listing has one element per live key
      starting with `marker:`, each the `getMarker` result for its key, which may
      be `null`; a failure of any command escapes. */
  method GetMarkers(store: Store, now: nat, link: Link) returns (r: Result<seq<Option<Marker>>, StoreException>, order: seq<string>)
    ensures link.Up? ==> r.Ok?
    ensures r.Ok? ==> |order| == |Keys(store, MarkerPattern, now)|
    ensures r.Ok? ==> forall i, j :: 0 <= i < j < |order| ==> order[i] != order[j]
    ensures r.Ok? ==> forall k :: k in order <==> k in Keys(store, MarkerPattern, now)
    ensures r.Ok? ==> ReadsMatch(store, now, link, order, r.value)
  {
    var listed := GetKeysByPattern(store, now, MarkerPattern, link);
    if listed.Err? {
      return Err(StoreException), [];
    }
    assert listed.value == Keys(store, MarkerPattern, now);
    order := Enumerate(listed.value);
    r := ReadMarkers(store, now, link, order);
  }
}

=== FILE: marker_proofs.dfy ===
/** Properties of the marker store that span several calls. */
module MarkerProofs {
  import opened Common
  import opened KeyValueStore
  import opened MarkerService
  import opened MarkerController

  /** A save that gets through is read back within three days: the stored
      coordinates, with the key (not the owner's email) in the email field. */
  lemma SaveThenGet(store: Store, t0: nat, t1: nat, key: string, latitude: Coord, longitude: Coord, email: string, later: Link)
    requires t0 <= t1 < t0 + MarkerTtlSeconds && Serves(later, 0)
    ensures var w := SaveMarker(store, t0, key, latitude, longitude, email, false, Up);
      GetMarker(w.store, t1, key, later) == Ok(Some(Marker(key, latitude, longitude)))
  {
  }

  /** Three days after the save the marker is gone. */
  lemma SavedMarkerExpires(store: Store, t0: nat, t1: nat, key: string, latitude: Coord, longitude: Coord, email: string, later: Link)
    requires t0 + MarkerTtlSeconds <= t1 && Serves(later, 0)
    ensures var w := SaveMarker(store, t0, key, latitude, longitude, email, false, Up);
      GetMarker(w.store, t1, key, later) == Ok(None)
  {
  }

  /** Saving again replaces the marker rather than merging with it: the store
      ends up exactly as if only the second save had happened, fresh three-day
      expiry included. */
  lemma SaveTwiceOverwrites(store: Store, t0: nat, t1: nat, key: string,
                            lat1: Coord, lon1: Coord, lat2: Coord, lon2: Coord, email: string)
    ensures var w1 := SaveMarker(store, t0, key, lat1, lon1, email, false, Up);
      SaveMarker(w1.store, t1, key, lat2, lon2, email, false, Up) == SaveMarker(store, t1, key, lat2, lon2, email, false, Up)
  {
    var w1 := SaveMarker(store, t0, key, lat1, lon1, email, false, Up);
    var e2 := Entry(MarkerDoc(email, lat2, lon2), Some(t1 + MarkerTtlSeconds));
    assert w1.store[key := e2] == store[key := e2];
  }

  /** A serialisation failure is swallowed and leaves the store untouched, so a
      previous marker survives it. */
  lemma EncodeFailureKeepsOldMarker(store: Store, now: nat, key: string, latitude: Coord, longitude: Coord, email: string, link: Link)
    ensures var w := SaveMarker(store, now, key, latitude, longitude, email, true, link);
      && w.out.Ok? && w.store == store
      && GetMarker(w.store, now, key, link) == GetMarker(store, now, key, link)
  {
  }

  /** After a delete that completes, reading the key finds nothing; every other
      key reads as before. */
  lemma DeleteThenGet(store: Store, now: nat, key: string, other: string, link: Link, later: Link)
    requires DeleteMarker(store, now, key, link).out.Ok? && Serves(later, 0)
    ensures var w := DeleteMarker(store, now, key, link);
      && GetMarker(w.store, now, key, later) == Ok(None)
      && (other != key ==> GetMarker(w.store, now, other, later) == GetMarker(store, now, other, later))
  {
  }

  /** Deleting twice is the same as deleting once. */
  lemma DeleteMarkerIdempotent(store: Store, now: nat, key: string, link: Link)
    requires DeleteMarker(store, now, key, link).out.Ok?
    ensures var w := DeleteMarker(store, now, key, link);
      DeleteMarker(w.store, now, key, link) == w
  {
  }

  /** The listing reports a saved marker under `marker:<email>` in the email
      field, never the bare email the save stored as the owner. */
  lemma ListedEmailIsKey(store: Store, t0: nat, t1: nat, principal: string, latitude: Coord, longitude: Coord, later: Link)
    requires t0 <= t1 < t0 + MarkerTtlSeconds && Serves(later, 0)
    ensures var w := SaveMarkerFor(store, t0, principal, latitude, longitude, false, Up);
      && w.store[MarkerKey(principal)].doc.email == principal
      && GetMarker(w.store, t1, MarkerKey(principal), later) == Ok(Some(Marker(MarkerKey(principal), latitude, longitude)))
      && MarkerKey(principal) != principal
  {
    assert |MarkerKey(principal)| == |principal| + 7;
  }

  /** A member's saved marker appears in the next listing, read under the
      member's key. */
  lemma SavedMarkerIsListed(store: Store, t0: nat, t1: nat, principal: string, latitude: Coord, longitude: Coord)
    requires t0 <= t1 < t0 + MarkerTtlSeconds
    ensures var w := SaveMarkerFor(store, t0, principal, latitude, longitude, false, Up);
      MarkerKey(principal) in Keys(w.store, MarkerPattern, t1)
  {
    var w := SaveMarkerFor(store, t0, principal, latitude, longitude, false, Up);
    MarkerPatternSelectsMarkerKeys(w.store, t1, MarkerKey(principal));
  }
}

=== FILE: marker_service.dfy ===
/** The marker store: one map pin per member, kept only in the distributed
    store with a three-day expiry, overwritten (never merged) on save. */
module MarkerService {
  import opened Common
  import opened KeyValueStore

  /** Marker entries expire three days (259200 seconds) after they are saved. */
  const MarkerTtlSeconds: nat := 259200

  datatype Marker = Marker(email: string, latitude: Coord, longitude: Coord)

  /** A store exception that the marker operations let escape. */
  datatype StoreException = StoreException

  /** The store after an operation and whether it completed or threw. */
  datatype Written = Written(store: Store, out: Result<(), StoreException>)

  function EncodeMarker(m: Marker): Doc {
    MarkerDoc(m.email, m.latitude, m.longitude)
  }

  /** Reading a stored document as a `Marker`; anything else fails to decode. */
  function DecodeMarker(d: Doc): (r: Option<Marker>)
    ensures r.Some? <==> d.MarkerDoc?
  {
    match d
    case MarkerDoc(e, lat, lon) => Some(Marker(e, lat, lon))
    case _ => None
  }

  /** Decoding inverts encoding. */
  lemma MarkerRoundTrip(m: Marker)
    ensures DecodeMarker(EncodeMarker(m)) == Some(m)
  {
  }

  /** `getMarker`: `null` for an absent key or an undecodable value (the decode
      error is swallowed); otherwise the stored coordinates, with the email
      field set to the key itself. A store failure escapes. */
  function GetMarker(store: Store, now: nat, key: string, link: Link): (r: Result<Option<Marker>, StoreException>)
    ensures r.Err? <==> !Serves(link, 0)
    ensures r.Ok? && !Live(store, key, now) ==> r.value.None?
    ensures r.Ok? && Live(store, key, now) && !store[key].doc.MarkerDoc? ==> r.value.None?
    ensures r.Ok? && r.value.Some? ==>
      && Live(store, key, now) && store[key].doc.MarkerDoc?
      && r.value.value == Marker(key, store[key].doc.latitude, store[key].doc.longitude)
    ensures r.Ok? && Live(store, key, now) && store[key].doc.MarkerDoc? ==> r.value.Some?
  {
    if !Serves(link, 0) then Err(StoreException)
    else
      match Get(store, key, now)
      case None => Ok(None)
      case Some(d) =>
        match DecodeMarker(d)
        case None => Ok(None)
        case Some(m) => Ok(Some(m.(email := key)))
  }

  /** `getKeysByPattern`: the live keys matching the glob pattern. */
  function GetKeysByPattern(store: Store, now: nat, pattern: string, link: Link): (r: Result<set<string>, StoreException>)
    ensures r.Err? <==> !Serves(link, 0)
    ensures r.Ok? ==> forall k :: k in r.value <==> Live(store, k, now) && GlobMatch(pattern, k)
  {
    if !Serves(link, 0) then Err(StoreException) else Ok(Keys(store, pattern, now))
  }

  /** The commands `deleteMarker` issues: the existence check, and the delete
      when the key exists. */
  function DeleteCommands(store: Store, now: nat, key: string): nat {
    if Live(store, key, now) then 2 else 1
  }

  /** `deleteMarker`: deletes the key only when it exists. */
  function DeleteMarker(store: Store, now: nat, key: string, link: Link): (r: Written)
    ensures r.out.Err? ==> r.store == store && !link.Up?
    ensures r.out.Ok? <==> Serves(link, 0) && (Live(store, key, now) ==> Serves(link, 1))
    ensures r.out.Ok? ==> !Live(r.store, key, now)
    ensures r.out.Ok? && !Live(store, key, now) ==> r.store == store
    ensures forall k :: k != key ==> (k in r.store <==> k in store) && (k in r.store ==> r.store[k] == store[k])
  {
    if !Serves(link, 0) then Written(store, Err(StoreException))
    else if !Live(store, key, now) then Written(store, Ok(()))
    else if !Serves(link, 1) then Written(store, Err(StoreException))
    else Written(Delete(store, key), Ok(()))
  }

  /** `saveMarker`: serialises the marker first (a serialisation failure is
      swallowed and nothing is touched), then deletes the old entry, sets the new
      one and gives it the three-day expiry. A store failure escapes, leaving
      whatever the commands before it did. */
  function SaveMarker(store: Store, now: nat, key: string, latitude: Coord, longitude: Coord, email: string,
                      encodeFails: bool, link: Link): (r: Written)
    ensures encodeFails ==> r == Written(store, Ok(()))
    ensures !encodeFails && link.Up? ==>
      r == Written(store[key := Entry(MarkerDoc(email, latitude, longitude), Some(now + MarkerTtlSeconds))], Ok(()))
    ensures r.out.Ok? <==> encodeFails || Serves(link, DeleteCommands(store, now, key) + 1)
    ensures r.out.Ok? && !encodeFails ==>
      r.store == store[key := Entry(MarkerDoc(email, latitude, longitude), Some(now + MarkerTtlSeconds))]
    ensures forall k :: k != key ==> (k in r.store <==> k in store) && (k in r.store ==> r.store[k] == store[k])
  {
    if encodeFails then Written(store, Ok(()))
    else
      var cleared := DeleteMarker(store, now, key, link);
      if cleared.out.Err? then cleared
      else
        var n := DeleteCommands(store, now, key);
        if !Serves(link, n) then Written(cleared.store, Err(StoreException))
        else
          var written := Set(cleared.store, key, EncodeMarker(Marker(email, latitude, longitude)));
          if !Serves(link, n + 1) then Written(written, Err(StoreException))
          else Written(Expire(written, key, MarkerTtlSeconds, now), Ok(()))
  }
}

=== FILE: matching.dfy ===
/** The matching record: one member's open offer to be matched, its status and
    its stand-by requests. */
module Matchings {
  import opened Common

  /** The four states of a matching record. */
  datatype MatchStatus = MatchHosting | MatchCancel | MatchSuccess | MatchCompleted

  /** Every status, in declaration order. */
  const AllStatuses: seq<MatchStatus> := [MatchHosting, MatchCancel, MatchSuccess, MatchCompleted]

  /** The status number each constant is declared with. */
  function StatusNumber(s: MatchStatus): (n: int)
    ensures 1 <= n <= 4
  {
    match s
    case MatchHosting => 1
    case MatchCancel => 2
    case MatchSuccess => 3
    case MatchCompleted => 4
  }

  /** The constant name, as the enum is stored in the `matching_status` column. */
  function StatusName(s: MatchStatus): string {
    match s
    case MatchHosting => "MATCH_HOSTING"
    case MatchCancel => "MATCH_CANCEL"
    case MatchSuccess => "MATCH_SUCCESS"
    case MatchCompleted => "MATCH_COMPLETED"
  }

  /** Reverse lookup of a status number; numbers outside 1..4 name no status. */
  function StatusOfNumber(n: int): (r: Option<MatchStatus>)
    ensures r.Some? <==> 1 <= n <= 4
    ensures r.Some? ==> StatusNumber(r.value) == n
  {
    if n == 1 then Some(MatchHosting)
    else if n == 2 then Some(MatchCancel)
    else if n == 3 then Some(MatchSuccess)
    else if n == 4 then Some(MatchCompleted)
    else None
  }

  /** There are exactly four statuses, their numbers are 1..4 in order, and the
      number determines the status. */
  lemma StatusNumbering()
    ensures |AllStatuses| == 4
    ensures forall s: MatchStatus :: s in AllStatuses
    ensures forall i :: 0 <= i < |AllStatuses| ==> StatusNumber(AllStatuses[i]) == i + 1
    ensures forall s, t: MatchStatus :: StatusNumber(s) == StatusNumber(t) ==> s == t
    ensures forall s: MatchStatus :: StatusOfNumber(StatusNumber(s)) == Some(s)
  {
    forall s: MatchStatus ensures s in AllStatuses {
      match s
      case MatchHosting => assert AllStatuses[0] == s;
      case MatchCancel => assert AllStatuses[1] == s;
      case MatchSuccess => assert AllStatuses[2] == s;
      case MatchCompleted => assert AllStatuses[3] == s;
    }
  }

  /** A pending request by a third party against a hosted match; `matching` is
      its back-link, the id of the record it belongs to. */
  datatype StandBy = StandBy(standById: nat, matching: Option<nat>)

  /** A matching record. `matchId` 0 means "not yet saved" (a primitive `long`
      id); `hostMemberId` is a plain column, `hostMember` the association. */
  datatype Matching = Matching(
    matchId: nat,
    latitude: Coord,
    longitude: Coord,
    status: MatchStatus,
    hostMemberId: nat,
    standBys: seq<StandBy>,
    hostMember: Option<Member>,
    guestMember: Option<Member>)

  /** A record as freshly constructed for the given coordinates. */
  function NewMatching(latitude: Coord, longitude: Coord): (m: Matching)
    ensures m.status == MatchHosting
    ensures m.latitude == latitude && m.longitude == longitude
    ensures m.matchId == 0 && m.hostMember.None? && m.guestMember.None? && m.standBys == []
  {
    Matching(0, latitude, longitude, MatchHosting, 0, [], None, None)
  }

  /** Record equality as Lombok generates it: every field except `hostMember`. */
  predicate SameRecord(a: Matching, b: Matching) {
    a.(hostMember := None) == b.(hostMember := None)
  }

  /** `Matching.addMember`: links the record into the member's list of records
      unless an equal record is already there, then makes the member the host.
      The list holds the record itself, so the entry it gains carries the new
      host too. `memberMatchings` is the member's list before the call; the
      member's own `addMatching` is not part of this model and is taken to
      append. */
  function AddMember(m: Matching, member: Member, memberMatchings: seq<Matching>): (r: (Matching, seq<Matching>))
    ensures r.0 == m.(hostMember := Some(member))
    ensures (exists i :: 0 <= i < |memberMatchings| && SameRecord(memberMatchings[i], m)) ==> r.1 == memberMatchings
    ensures (forall i :: 0 <= i < |memberMatchings| ==> !SameRecord(memberMatchings[i], m)) ==> r.1 == memberMatchings + [r.0]
  {
    var hosted := m.(hostMember := Some(member));
    var contained := exists i :: 0 <= i < |memberMatchings| && SameRecord(memberMatchings[i], m);
    var list := if contained then memberMatchings else memberMatchings + [hosted];
    (hosted, list)
  }

  /** `addMember` never puts a second equal record into the member's list, and
      changes no field of the record except its host. */
  lemma AddMemberNoDuplicate(m: Matching, member: Member, memberMatchings: seq<Matching>)
    requires forall i, j :: 0 <= i < j < |memberMatchings| ==> !SameRecord(memberMatchings[i], memberMatchings[j])
    ensures var (m', list) := AddMember(m, member, memberMatchings);
      && (forall i, j :: 0 <= i < j < |list| ==> !SameRecord(list[i], list[j]))
      && (exists i :: 0 <= i < |list| && SameRecord(list[i], m))
      && m'.hostMember == Some(member)
      && m'.hostMemberId == m.hostMemberId && m'.status == m.status
      && m'.latitude == m.latitude && m'.longitude == m.longitude
  {
    var (m', list) := AddMember(m, member, memberMatchings);
    if !(exists i :: 0 <= i < |memberMatchings| && SameRecord(memberMatchings[i], m)) {
      assert list == memberMatchings + [m'];
      assert SameRecord(list[|memberMatchings|], m);
    }
  }

  /** `Matching.addMatchingStandBy`: appends the stand-by to the record's list and
      sets the stand-by's back-link when it does not already point to this
      record. The boolean reports whether the back-link call was made. */
  function AddMatchingStandBy(m: Matching, sb: StandBy): (r: (Matching, StandBy, bool))
    ensures r.2 <==> sb.matching != Some(m.matchId)
    ensures r.1.matching == Some(m.matchId) && r.1.standById == sb.standById
    ensures !r.2 ==> r.1 == sb
    ensures r.0 == m.(standBys := m.standBys + [r.1])
  {
    var linked := sb.matching != Some(m.matchId);
    var sb' := if linked then sb.(matching := Some(m.matchId)) else sb;
    (m.(standBys := m.standBys + [sb']), sb', linked)
  }

  /** When every stand-by of the record links back to it, so does every
      stand-by after `addMatchingStandBy`, the new one included. */
  lemma AddMatchingStandByKeepsLinks(m: Matching, sb: StandBy)
    requires forall i :: 0 <= i < |m.standBys| ==> m.standBys[i].matching == Some(m.matchId)
    ensures var (m', sb', _) := AddMatchingStandBy(m, sb);
      && m'.matchId == m.matchId
      && |m'.standBys| == |m.standBys| + 1 && m'.standBys[|m.standBys|] == sb'
      && forall i :: 0 <= i < |m'.standBys| ==> m'.standBys[i].matching == Some(m'.matchId)
  {
  }
}

=== FILE: matching_repository.dfy ===
/** The matching table and the derived queries of its repository. The table is a
    sequence of rows in id order: identity ids only grow, so insertion order and
    id order agree. */
module MatchingRepository {
  import opened Common
  import opened Matchings

  /** The result of a query declared to return at most one row. Spring Data
      throws when more than one row matches, which `NonUnique` records. */
  datatype Lookup = Absent | Found(row: Matching) | NonUnique

  /** The rows of `rows` that satisfy `p`, in table order. */
  function Filter(rows: seq<Matching>, p: Matching -> bool): (r: seq<Matching>)
    ensures |r| <= |rows|
    ensures forall m :: m in r <==> m in rows && p(m)
  {
    if rows == [] then []
    else if p(rows[0]) then [rows[0]] + Filter(rows[1..], p)
    else Filter(rows[1..], p)
  }

  /** A single-result query over the rows satisfying `p`. */
  function Single(rows: seq<Matching>, p: Matching -> bool): (r: Lookup)
    ensures r.Absent? <==> (forall m :: m in rows ==> !p(m))
    ensures r.Found? ==> r.row in rows && p(r.row)
    ensures r.Found? ==> forall m :: m in rows && p(m) ==> m == r.row
    ensures r.NonUnique? <==> exists i, j :: 0 <= i < j < |rows| && p(rows[i]) && p(rows[j])
  {
    var hits := Filter(rows, p);
    if |hits| == 0 then Absent
    else if |hits| == 1 then
      assert hits[0] in hits;
      assert forall m :: m in hits ==> m == hits[0];
      assert !exists i, j :: 0 <= i < j < |rows| && p(rows[i]) && p(rows[j]) by {
        forall i, j | 0 <= i < j < |rows| && p(rows[i]) && p(rows[j])
          ensures false
        {
          TwoHitsInFilter(rows, p, i, j);
        }
      }
      Found(hits[0])
    else
      FilterHasTwoPositions(rows, p);
      NonUnique
  }

  /** Two rows pass the filter only if two positions of the table satisfy it;
      returns two such positions. */
  lemma {:induction false} FilterHasTwo(rows: seq<Matching>, p: Matching -> bool) returns (i: nat, j: nat)
    requires |Filter(rows, p)| >= 2
    ensures i < j < |rows| && p(rows[i]) && p(rows[j])
  {
    var t := rows[1..];
    if p(rows[0]) {
      assert Filter(rows, p) == [rows[0]] + Filter(t, p);
      var x := Filter(t, p)[0];
      assert x in Filter(t, p);
      var k :| 0 <= k < |t| && t[k] == x;
      i, j := 0, k + 1;
    } else {
      assert Filter(rows, p) == Filter(t, p);
      var i', j' := FilterHasTwo(t, p);
      i, j := i' + 1, j' + 1;
    }
  }

  lemma FilterHasTwoPositions(rows: seq<Matching>, p: Matching -> bool)
    requires |Filter(rows, p)| >= 2
    ensures exists i, j :: 0 <= i < j < |rows| && p(rows[i]) && p(rows[j])
  {
    var i, j := FilterHasTwo(rows, p);
  }

  /** Two positions of the table that satisfy the filter give two rows that
      pass it. */
  lemma {:induction false} TwoHitsInFilter(rows: seq<Matching>, p: Matching -> bool, i: nat, j: nat)
    requires i < j < |rows| && p(rows[i]) && p(rows[j])
    ensures |Filter(rows, p)| >= 2
  {
    var t := rows[1..];
    if i == 0 {
      assert t[j - 1] in t;
      assert Filter(rows, p) == [rows[0]] + Filter(t, p);
      assert t[j - 1] in Filter(t, p);
    } else {
      TwoHitsInFilter(t, p, i - 1, j - 1);
      assert |Filter(rows, p)| >= |Filter(t, p)|;
    }
  }

  /** A row's host is the given member (the join column compares member ids). */
  predicate HostedBy(m: Matching, member: Member) {
    m.hostMember.Some? && m.hostMember.value.memberId == member.memberId
  }

  /** `findByHostMemberAndMatchStatus`. */
  function FindByHostMemberAndMatchStatus(rows: seq<Matching>, member: Member, status: MatchStatus): (r: Lookup)
    ensures r.Absent? <==> (forall m :: m in rows ==> !(HostedBy(m, member) && m.status == status))
    ensures r.Found? ==> r.row in rows && HostedBy(r.row, member) && r.row.status == status
    ensures r.Found? ==> forall m :: m in rows && HostedBy(m, member) && m.status == status ==> m == r.row
    ensures r.NonUnique? <==> exists i, j :: (0 <= i < j < |rows|
      && HostedBy(rows[i], member) && rows[i].status == status && HostedBy(rows[j], member) && rows[j].status == status)
  {
    Single(rows, (m: Matching) => HostedBy(m, member) && m.status == status)
  }

  /** `findByHostMember_EmailAndMatchStatus`: the host's email and the status must both match. */
  function FindByHostEmailAndMatchStatus(rows: seq<Matching>, email: string, status: MatchStatus): (r: Lookup)
    ensures r.Absent? <==> (forall m :: m in rows ==> !(m.hostMember.Some? && m.hostMember.value.email == email && m.status == status))
    ensures r.Found? ==> r.row in rows && r.row.hostMember.Some? && r.row.hostMember.value.email == email && r.row.status == status
    ensures r.Found? ==> forall m :: m in rows && m.hostMember.Some? && m.hostMember.value.email == email && m.status == status ==> m == r.row
    ensures r.NonUnique? <==> exists i, j :: (0 <= i < j < |rows|
      && rows[i].hostMember.Some? && rows[i].hostMember.value.email == email && rows[i].status == status
      && rows[j].hostMember.Some? && rows[j].hostMember.value.email == email && rows[j].status == status)
  {
    Single(rows, (m: Matching) => m.hostMember.Some? && m.hostMember.value.email == email && m.status == status)
  }

  /** `findByHostMember`: any row hosted by the member, whatever its status. */
  function FindByHostMember(rows: seq<Matching>, member: Member): (r: Lookup)
    ensures r.Absent? <==> (forall m :: m in rows ==> !HostedBy(m, member))
    ensures r.Found? ==> r.row in rows && HostedBy(r.row, member)
    ensures r.Found? ==> forall m :: m in rows && HostedBy(m, member) ==> m == r.row
    ensures r.NonUnique? <==> exists i, j :: 0 <= i < j < |rows| && HostedBy(rows[i], member) && HostedBy(rows[j], member)
  {
    Single(rows, (m: Matching) => HostedBy(m, member))
  }

  /** `findByHostMemberIdOrHostMemberId`, on the plain `host_member_id` column. */
  function FindByHostMemberIdOrHostMemberId(rows: seq<Matching>, a: nat, b: nat): (r: seq<Matching>)
    ensures forall m :: m in r <==> m in rows && (m.hostMemberId == a || m.hostMemberId == b)
  {
    Filter(rows, HostIdIn(a, b))
  }

  /** The derived query's condition: the host id column is one of the two. */
  function HostIdIn(a: nat, b: nat): Matching -> bool {
    (m: Matching) => m.hostMemberId == a || m.hostMemberId == b
  }

  /** The statuses the "ongoing match" query accepts, by stored name. */
  const OngoingStatusNames: set<string> := {"MATCH_REQUESTED", "MATCH_CONFIRMED"}

  /** The row joins both members, in either role, and is in an ongoing status.
      The query navigates both associations, so rows without a guest never match. */
  predicate OngoingBetween(m: Matching, memberId: nat, guestId: nat) {
    && m.hostMember.Some? && m.guestMember.Some?
    && ((m.hostMember.value.memberId == memberId && m.guestMember.value.memberId == guestId)
        || (m.hostMember.value.memberId == guestId && m.guestMember.value.memberId == memberId))
    && StatusName(m.status) in OngoingStatusNames
  }

  /** `findOngoingMatchBetweenMembers`. */
  function FindOngoingMatchBetweenMembers(rows: seq<Matching>, memberId: nat, guestId: nat): (r: Lookup)
    ensures r.Absent? <==> (forall m :: m in rows ==> !OngoingBetween(m, memberId, guestId))
  {
    Single(rows, (m: Matching) => OngoingBetween(m, memberId, guestId))
  }

  /** The ongoing-match query does not depend on the order of its two members. */
  lemma OngoingMatchSymmetric(rows: seq<Matching>, a: nat, b: nat)
    ensures FindOngoingMatchBetweenMembers(rows, a, b) == FindOngoingMatchBetweenMembers(rows, b, a)
  {
    assert forall m :: OngoingBetween(m, a, b) == OngoingBetween(m, b, a);
    FilterExtensional(rows, (m: Matching) => OngoingBetween(m, a, b), (m: Matching) => OngoingBetween(m, b, a));
  }

  /** No status is stored under an ongoing name. */
  lemma NoOngoingStatus(s: MatchStatus)
    ensures StatusName(s) !in OngoingStatusNames
  {
    match s
    case MatchHosting => assert StatusName(s)[6] == 'H';
    case MatchCancel => assert StatusName(s)[7] == 'A';
    case MatchSuccess => assert StatusName(s)[6] == 'S';
    case MatchCompleted => assert StatusName(s)[7] == 'O';
  }

  /** So the ongoing-match query never finds a row. */
  lemma OngoingMatchNeverFound(rows: seq<Matching>, a: nat, b: nat)
    ensures FindOngoingMatchBetweenMembers(rows, a, b) == Absent
  {
    forall m | m in rows
      ensures !OngoingBetween(m, a, b)
    {
      NoOngoingStatus(m.status);
    }
  }

  /** Filtering with two predicates that agree everywhere gives the same rows. */
  lemma {:induction false} FilterExtensional(rows: seq<Matching>, p: Matching -> bool, q: Matching -> bool)
    requires forall m :: p(m) == q(m)
    ensures Filter(rows, p) == Filter(rows, q)
  {
    if rows != [] {
      FilterExtensional(rows[1..], p, q);
    }
  }

  /** Filtering twice is filtering once by both conditions: the rows that pass
      both, in table order. */
  lemma {:induction false} FilterTwice(rows: seq<Matching>, p: Matching -> bool, q: Matching -> bool, both: Matching -> bool)
    requires forall m :: both(m) == (p(m) && q(m))
    ensures Filter(Filter(rows, p), q) == Filter(rows, both)
  {
    if rows != [] {
      FilterTwice(rows[1..], p, q, both);
      if p(rows[0]) {
        assert ([rows[0]] + Filter(rows[1..], p))[1..] == Filter(rows[1..], p);
      }
    }
  }

  /** Row ids strictly increase along the table. */
  ghost predicate IdsIncreasing(rows: seq<Matching>) {
    forall i, j :: 0 <= i < j < |rows| ==> rows[i].matchId < rows[j].matchId
  }

  /** `rows` with the row carrying `m`'s id replaced by `m` (a merge of a known row). */
  function Replace(rows: seq<Matching>, m: Matching): (r: seq<Matching>)
    ensures |r| == |rows|
    ensures forall i :: 0 <= i < |rows| ==> r[i] == (if rows[i].matchId == m.matchId then m else rows[i])
  {
    if rows == [] then []
    else [if rows[0].matchId == m.matchId then m else rows[0]] + Replace(rows[1..], m)
  }

  /** The table read in descending id order. */
  function Reverse(rows: seq<Matching>): (r: seq<Matching>)
    ensures |r| == |rows|
    ensures forall i :: 0 <= i < |rows| ==> r[i] == rows[|rows| - 1 - i]
  {
    if rows == [] then [] else Reverse(rows[1..]) + [rows[0]]
  }
}

=== FILE: matching_service.dfy ===
/** The matching lifecycle: creating, moving, updating and querying matching
    records, and publishing clean-up events when a match is cancelled.
    Each operation is a pure transition from one database state to the next,
    paired with the value returned or the exception thrown. */
module MatchingService {
  import opened Common
  import opened Matchings
  import opened MatchingRepository

  /** The business exception codes the service raises. */
  datatype ExceptionCode = MemberNotFound | MatchNotFound

  /** Why an operation fails: a business exception, a single-result query that
      matched several rows, or page arguments the page request rejects. */
  datatype Failure = Business(code: ExceptionCode) | IncorrectResultSize | InvalidPageRequest

  /** The two kinds of clean-up event the service publishes. */
  datatype EventCase = DeleteRelatedMatchingStandByData | DeleteMarker

  /** An event's payload: a member id or an email, depending on the case. */
  datatype Payload = MemberIdPayload(memberId: nat) | EmailPayload(email: string)

  datatype Event = Event(eventCase: EventCase, payload: Payload)

  /** What the service does to the outside, in order: publishing an event,
      saving one row, saving a batch of rows. */
  datatype Effect = Published(event: Event) | Saved(row: Matching) | SavedAll(batch: seq<Matching>)

  /** The matching table, the next identity value, and the log of effects. */
  datatype Db = Db(rows: seq<Matching>, nextId: nat, effects: seq<Effect>)

  /** The new state and the value returned or the failure thrown. */
  datatype Reply<+T> = Reply(db: Db, out: Result<T, Failure>)

  /** The id of some row in the table. */
  predicate IdInUse(rows: seq<Matching>, id: nat) {
    exists i :: 0 <= i < |rows| && rows[i].matchId == id
  }

  /** At most one HOSTING row per host member. */
  ghost predicate OneHostingPerHost(rows: seq<Matching>) {
    forall i, j :: 0 <= i < j < |rows| && rows[i].status == MatchHosting && rows[j].status == MatchHosting
      && rows[i].hostMember.Some? && rows[j].hostMember.Some?
      ==> rows[i].hostMember.value.memberId != rows[j].hostMember.value.memberId
  }

  /** Every row's host, when set, is the directory's member for its email. */
  ghost predicate HostsRegistered(rows: seq<Matching>, directory: map<string, Member>) {
    forall i :: 0 <= i < |rows| && rows[i].hostMember.Some? ==>
      rows[i].hostMember.value.email in directory && directory[rows[i].hostMember.value.email] == rows[i].hostMember.value
  }

  /** The state the operations keep: ids start at 1, are below the next identity
      value and increasing along the table; one HOSTING row per host; hosts are
      registered members. */
  ghost predicate Valid(db: Db, directory: map<string, Member>) {
    && ValidDirectory(directory)
    && IdsIncreasing(db.rows)
    && db.nextId >= 1
    && (forall i :: 0 <= i < |db.rows| ==> 1 <= db.rows[i].matchId < db.nextId)
    && OneHostingPerHost(db.rows)
    && HostsRegistered(db.rows, directory)
  }

  /** Resolves the authenticated principal (an email) to a member. */
  function ExtractMember(directory: map<string, Member>, principal: string): (r: Result<Member, Failure>)
    ensures r.Err? <==> principal !in directory
    ensures r.Err? ==> r.error == Business(MemberNotFound)
    ensures r.Ok? ==> r.value == directory[principal]
  {
    if principal in directory then Ok(directory[principal]) else Err(Business(MemberNotFound))
  }

  /** The repository's `save`: a row whose id is in use is merged over it; any
      other row is inserted under the next identity value. */
  function SaveRow(db: Db, m: Matching): (r: (Db, Matching))
    ensures IdInUse(db.rows, m.matchId) ==> r.1 == m && r.0.rows == Replace(db.rows, m) && r.0.nextId == db.nextId
    ensures !IdInUse(db.rows, m.matchId) ==>
      r.1 == m.(matchId := db.nextId) && r.0.rows == db.rows + [r.1] && r.0.nextId == db.nextId + 1
    ensures r.0.effects == db.effects + [Saved(r.1)]
  {
    if IdInUse(db.rows, m.matchId) then
      (db.(rows := Replace(db.rows, m), effects := db.effects + [Saved(m)]), m)
    else
      var saved := m.(matchId := db.nextId);
      (Db(db.rows + [saved], db.nextId + 1, db.effects + [Saved(saved)]), saved)
  }

  /** `createMatch`: if the caller already hosts a HOSTING row, that row takes
      the draft's coordinates; otherwise the draft is saved with the caller as
      host. There is no check for an ongoing match with another member. */
  function CreateMatch(db: Db, directory: map<string, Member>, principal: string, draft: Matching): (r: Reply<Matching>)
    ensures r.out.Err? ==> r.db == db
    ensures r.out.Ok? ==> principal in directory && HostedBy(r.out.value, directory[principal])
    ensures r.out.Ok? ==> r.out.value.latitude == draft.latitude && r.out.value.longitude == draft.longitude
    ensures r.out.Ok? ==> r.db.effects == db.effects + [Saved(r.out.value)]
  {
    match ExtractMember(directory, principal)
    case Err(e) => Reply(db, Err(e))
    case Ok(member) =>
      match FindByHostMemberAndMatchStatus(db.rows, member, MatchHosting)
      case NonUnique => Reply(db, Err(IncorrectResultSize))
      case Found(row) =>
        var moved := row.(latitude := draft.latitude, longitude := draft.longitude);
        Reply(db.(rows := Replace(db.rows, moved), effects := db.effects + [Saved(moved)]), Ok(moved))
      case Absent =>
        var (db', saved) := SaveRow(db, draft.(hostMember := Some(member), hostMemberId := member.memberId));
        Reply(db', Ok(saved))
  }

  /** The events a cancellation publishes for the given host, in order. */
  function CancelEvents(host: Member): seq<Effect> {
    [ Published(Event(DeleteRelatedMatchingStandByData, MemberIdPayload(host.memberId))),
      Published(Event(DeleteMarker, EmailPayload(host.email))) ]
  }

  /** `updateMatch`: sets the caller's HOSTING row to the requested status (a
      missing status changes nothing), publishes the cancellation events when
      MATCH_CANCEL is requested, then saves the row. */
  function UpdateMatch(db: Db, directory: map<string, Member>, principal: string, requested: Option<MatchStatus>): (r: Reply<Matching>)
    ensures r.out.Err? ==> r.db == db
    ensures r.out.Ok? ==> principal in directory && HostedBy(r.out.value, directory[principal])
    ensures r.out.Ok? && requested.Some? ==> r.out.value.status == requested.value
    ensures r.out.Ok? && requested.None? ==> r.out.value.status == MatchHosting
    ensures r.out.Ok? ==> r.db.nextId == db.nextId && |r.db.rows| == |db.rows|
  {
    match ExtractMember(directory, principal)
    case Err(e) => Reply(db, Err(e))
    case Ok(member) =>
      match FindByHostMemberAndMatchStatus(db.rows, member, MatchHosting)
      case NonUnique => Reply(db, Err(IncorrectResultSize))
      case Absent => Reply(db, Err(Business(MatchNotFound)))
      case Found(row) =>
        var updated := if requested.Some? then row.(status := requested.value) else row;
        var events := if requested == Some(MatchCancel) then CancelEvents(row.hostMember.value) else [];
        Reply(db.(rows := Replace(db.rows, updated), effects := db.effects + events + [Saved(updated)]), Ok(updated))
  }

  /** The rows hosted (by the plain id column) by either member. */
  predicate EitherHost(m: Matching, a: nat, b: nat) {
    m.hostMemberId == a || m.hostMemberId == b
  }

  /** The table with every row hosted by either member set to SUCCESS. */
  function PromoteAll(rows: seq<Matching>, a: nat, b: nat): (r: seq<Matching>)
    ensures |r| == |rows|
    ensures forall i :: 0 <= i < |rows| && EitherHost(rows[i], a, b) ==> r[i] == rows[i].(status := MatchSuccess)
    ensures forall i :: 0 <= i < |rows| && !EitherHost(rows[i], a, b) ==> r[i] == rows[i]
  {
    if rows == [] then []
    else [if EitherHost(rows[0], a, b) then rows[0].(status := MatchSuccess) else rows[0]] + PromoteAll(rows[1..], a, b)
  }

  /** A row the custom-event update still has to change. */
  predicate Unpromoted(m: Matching) {
    m.status != MatchSuccess
  }

  /** `batch` is `pending` with every row set to SUCCESS, position by position. */
  predicate PromotedCopy(batch: seq<Matching>, pending: seq<Matching>) {
    |batch| == |pending| && forall i :: 0 <= i < |batch| ==> batch[i] == pending[i].(status := MatchSuccess)
  }

  /** The batch the custom-event update saves: the found rows that are not yet
      SUCCESS, in the order found, each set to SUCCESS. */
  function Promoted(found: seq<Matching>): (r: seq<Matching>)
    ensures PromotedCopy(r, Filter(found, Unpromoted))
    ensures |r| == 0 <==> forall i :: 0 <= i < |found| ==> found[i].status == MatchSuccess
  {
    if found == [] then []
    else if found[0].status != MatchSuccess then [found[0].(status := MatchSuccess)] + Promoted(found[1..])
    else
      assert forall i :: 1 <= i < |found| ==> found[i] == found[1..][i - 1];
      Promoted(found[1..])
  }

  /** The batch is empty exactly when every row hosted by either member is
      already SUCCESS. */
  lemma PromotionNeeded(rows: seq<Matching>, a: nat, b: nat)
    ensures |Promoted(FindByHostMemberIdOrHostMemberId(rows, a, b))| == 0
      <==> forall i :: 0 <= i < |rows| && EitherHost(rows[i], a, b) ==> rows[i].status == MatchSuccess
  {
    var found := FindByHostMemberIdOrHostMemberId(rows, a, b);
    if |Promoted(found)| == 0 {
      forall i | 0 <= i < |rows| && EitherHost(rows[i], a, b)
        ensures rows[i].status == MatchSuccess
      {
        assert rows[i] in found;
      }
    } else {
      var k :| 0 <= k < |found| && found[k].status != MatchSuccess;
      assert found[k] in rows;
    }
  }

  /** `updateMatchForCustomEvent`: every row hosted by either member that is not
      yet SUCCESS becomes SUCCESS, whatever its status was (CANCEL and COMPLETED
      included), and every other row is untouched. The batch of changed rows is
      saved only when it is not empty, so the state changes exactly when some
      row needed to. */
  function UpdateMatchForCustomEvent(db: Db, hostMemberId: nat, guestMemberId: nat): (r: Db)
    ensures r.nextId == db.nextId && |r.rows| == |db.rows|
    ensures forall i :: 0 <= i < |db.rows| && EitherHost(db.rows[i], hostMemberId, guestMemberId) ==>
      r.rows[i] == db.rows[i].(status := MatchSuccess)
    ensures forall i :: 0 <= i < |db.rows| && !EitherHost(db.rows[i], hostMemberId, guestMemberId) ==>
      r.rows[i] == db.rows[i]
    ensures r == db <==> forall i :: 0 <= i < |db.rows| && EitherHost(db.rows[i], hostMemberId, guestMemberId) ==>
      db.rows[i].status == MatchSuccess
    ensures r != db ==>
      r.effects == db.effects + [SavedAll(Promoted(FindByHostMemberIdOrHostMemberId(db.rows, hostMemberId, guestMemberId)))]
  {
    var changed := Promoted(FindByHostMemberIdOrHostMemberId(db.rows, hostMemberId, guestMemberId));
    PromotionNeeded(db.rows, hostMemberId, guestMemberId);
    if |changed| == 0 then db
    else db.(rows := PromoteAll(db.rows, hostMemberId, guestMemberId), effects := db.effects + [SavedAll(changed)])
  }

  /** `findMatches`: page `page` of `size` rows, by id descending. */
  function FindMatches(db: Db, page: int, size: int): (r: Result<seq<Matching>, Failure>)
    ensures r.Err? <==> page < 0 || size < 1
    ensures r.Ok? ==> |r.value| <= size
    ensures r.Ok? ==> forall i :: 0 <= i < |r.value| ==> r.value[i] in db.rows
  {
    if page < 0 || size < 1 then Err(InvalidPageRequest)
    else
      var descending := Reverse(db.rows);
      var start := page * size;
      if start >= |descending| then Ok([])
      else
        var end := if start + size <= |descending| then start + size else |descending|;
        assert forall i :: start <= i < end ==> descending[i] in db.rows;
        Ok(descending[start..end])
  }

  /** `findVerifiedMatch(email, authentication)`: the caller must be a member,
      the email must host a HOSTING row, and the email must be a member; the
      row is returned with that member attached as host. */
  function FindVerifiedMatchByEmail(db: Db, directory: map<string, Member>, principal: string, email: string): (r: Result<Matching, Failure>)
    ensures r.Ok? ==> email in directory && r.value.status == MatchHosting && r.value.hostMember == Some(directory[email])
  {
    match ExtractMember(directory, principal)
    case Err(e) => Err(e)
    case Ok(_) =>
      match FindByHostEmailAndMatchStatus(db.rows, email, MatchHosting)
      case Absent => Err(Business(MatchNotFound))
      case NonUnique => Err(IncorrectResultSize)
      case Found(row) =>
        match FindByEmail(directory, email)
        case None => Err(Business(MemberNotFound))
        case Some(member) => Ok(row.(hostMember := Some(member)))
  }

  /** `findVerifiedMatch(authentication)` as written: any row hosted by the
      caller, whatever its status. */
  function FindVerifiedMatch(db: Db, directory: map<string, Member>, principal: string): (r: Result<Matching, Failure>)
    ensures r.Ok? ==> principal in directory && r.value in db.rows && HostedBy(r.value, directory[principal])
    ensures r.Ok? ==> forall m :: m in db.rows && HostedBy(m, directory[principal]) ==> m == r.value
  {
    match ExtractMember(directory, principal)
    case Err(e) => Err(e)
    case Ok(member) =>
      match FindByHostMember(db.rows, member)
      case Absent => Err(Business(MatchNotFound))
      case NonUnique => Err(IncorrectResultSize)
      case Found(row) => Ok(row)
  }

  /** `findVerifiedMatch(authentication)` as evidently intended: the caller's
      HOSTING row, or MATCH_NOT_FOUND. */
  function FindHostedMatch(db: Db, directory: map<string, Member>, principal: string): (r: Result<Matching, Failure>)
    ensures r.Ok? ==> principal in directory && r.value in db.rows
    ensures r.Ok? ==> HostedBy(r.value, directory[principal]) && r.value.status == MatchHosting
  {
    match ExtractMember(directory, principal)
    case Err(e) => Err(e)
    case Ok(member) =>
      match FindByHostMemberAndMatchStatus(db.rows, member, MatchHosting)
      case Absent => Err(Business(MatchNotFound))
      case NonUnique => Err(IncorrectResultSize)
      case Found(row) => Ok(row)
  }
}

=== FILE: matching_service_proofs.dfy ===
/** Properties of the matching lifecycle that relate several rows, several calls
    or the state invariant. */
module MatchingServiceProofs {
  import opened Common
  import opened Matchings
  import opened MatchingRepository
  import opened MatchingService

  // ---------------------------------------------------------------------------
  // The state invariant
  // ---------------------------------------------------------------------------

  /** A table change that keeps every row's id and host and makes no row
      HOSTING that was not HOSTING before keeps the invariant. */
  lemma NoNewHostingKeepsValid(db: Db, db': Db, directory: map<string, Member>)
    requires Valid(db, directory)
    requires |db'.rows| == |db.rows| && db'.nextId == db.nextId
    requires forall i :: 0 <= i < |db.rows| ==>
      && db'.rows[i].matchId == db.rows[i].matchId
      && db'.rows[i].hostMember == db.rows[i].hostMember
      && (db'.rows[i].status == MatchHosting ==> db.rows[i].status == MatchHosting)
    ensures Valid(db', directory)
  {
  }

  /** Under the invariant, the caller's HOSTING row is unique. */
  lemma HostingLookupUnique(db: Db, directory: map<string, Member>, member: Member)
    requires Valid(db, directory)
    ensures !FindByHostMemberAndMatchStatus(db.rows, member, MatchHosting).NonUnique?
  {
  }

  /** Under the invariant, the HOSTING row of an email is unique: hosts are
      registered, so one email means one member id. */
  lemma HostingByEmailUnique(db: Db, directory: map<string, Member>, email: string)
    requires Valid(db, directory)
    ensures !FindByHostEmailAndMatchStatus(db.rows, email, MatchHosting).NonUnique?
  {
  }

  /** Ids are unique, so a row is determined by its id. */
  lemma RowById(rows: seq<Matching>, i: nat, k: nat)
    requires IdsIncreasing(rows)
    requires i < |rows| && k < |rows| && rows[i].matchId == rows[k].matchId
    ensures i == k
  {
  }

  /** Locates a row that is known to be in the table. */
  lemma IndexOf(rows: seq<Matching>, m: Matching) returns (k: nat)
    requires m in rows
    ensures k < |rows| && rows[k] == m
  {
    k :| 0 <= k < |rows| && rows[k] == m;
  }

  /** Appending a row under the next id, hosted by a registered member with no
      HOSTING row, keeps the invariant. */
  lemma AppendKeepsValid(db: Db, directory: map<string, Member>, member: Member, rec: Matching)
    requires Valid(db, directory)
    requires member.email in directory && directory[member.email] == member
    requires forall m :: m in db.rows ==> !(HostedBy(m, member) && m.status == MatchHosting)
    requires rec.hostMember == Some(member) && rec.matchId == db.nextId
    ensures Valid(db.(rows := db.rows + [rec], nextId := db.nextId + 1), directory)
  {
    var rows' := db.rows + [rec];
    forall i, j | 0 <= i < j < |rows'| && rows'[i].status == MatchHosting && rows'[j].status == MatchHosting
      && rows'[i].hostMember.Some? && rows'[j].hostMember.Some?
      ensures rows'[i].hostMember.value.memberId != rows'[j].hostMember.value.memberId
    {
      if j == |db.rows| {
        assert db.rows[i] in db.rows;
      }
    }
  }

  /** Merging a row over the row with the same id, hosted by a registered
      member with no HOSTING row, keeps the invariant. */
  lemma MergeKeepsValid(db: Db, directory: map<string, Member>, member: Member, rec: Matching)
    requires Valid(db, directory)
    requires member.email in directory && directory[member.email] == member
    requires forall m :: m in db.rows ==> !(HostedBy(m, member) && m.status == MatchHosting)
    requires rec.hostMember == Some(member) && IdInUse(db.rows, rec.matchId)
    ensures Valid(db.(rows := Replace(db.rows, rec)), directory)
  {
    var k :| 0 <= k < |db.rows| && db.rows[k].matchId == rec.matchId;
    ReplaceAtUniqueId(db.rows, rec, k);
    SetRowKeepsValid(db, directory, member, rec, k);
  }

  /** Overwriting the row at `k` by a row with the same id, hosted by a
      registered member with no HOSTING row, keeps the invariant. */
  lemma SetRowKeepsValid(db: Db, directory: map<string, Member>, member: Member, rec: Matching, k: nat)
    requires Valid(db, directory) && k < |db.rows| && db.rows[k].matchId == rec.matchId
    requires member.email in directory && directory[member.email] == member
    requires forall m :: m in db.rows ==> !(HostedBy(m, member) && m.status == MatchHosting)
    requires rec.hostMember == Some(member)
    ensures Valid(db.(rows := db.rows[k := rec]), directory)
  {
    SetRowKeepsHosting(db.rows, member, rec, k);
    SetRowKeepsIds(db.rows, rec, k);
    SetRowKeepsHosts(db.rows, directory, rec, k);
  }

  /** Under increasing ids, the merge overwrites exactly the row with that id. */
  lemma ReplaceAtUniqueId(rows: seq<Matching>, rec: Matching, k: nat)
    requires IdsIncreasing(rows) && k < |rows| && rows[k].matchId == rec.matchId
    ensures Replace(rows, rec) == rows[k := rec]
  {
    forall i | 0 <= i < |rows| && rows[i].matchId == rec.matchId
      ensures i == k
    {
      RowById(rows, i, k);
    }
  }

  /** Overwriting a row by one with the same id keeps every id in place. */
  lemma SetRowKeepsIds(rows: seq<Matching>, rec: Matching, k: nat)
    requires IdsIncreasing(rows) && k < |rows| && rows[k].matchId == rec.matchId
    ensures IdsIncreasing(rows[k := rec])
    ensures forall i :: 0 <= i < |rows| ==> rows[k := rec][i].matchId == rows[i].matchId
  {
  }

  /** Overwriting a row by one hosted by a registered member keeps hosts
      registered. */
  lemma SetRowKeepsHosts(rows: seq<Matching>, directory: map<string, Member>, rec: Matching, k: nat)
    requires HostsRegistered(rows, directory) && k < |rows|
    requires rec.hostMember.Some? ==> rec.hostMember.value.email in directory && directory[rec.hostMember.value.email] == rec.hostMember.value
    ensures HostsRegistered(rows[k := rec], directory)
  {
  }

  /** Overwriting one row by a row whose host has no HOSTING row elsewhere keeps
      one HOSTING row per host. */
  lemma SetRowKeepsHosting(rows: seq<Matching>, member: Member, rec: Matching, k: nat)
    requires OneHostingPerHost(rows) && k < |rows|
    requires forall m :: m in rows ==> !(HostedBy(m, member) && m.status == MatchHosting)
    requires rec.hostMember == Some(member)
    ensures OneHostingPerHost(rows[k := rec])
  {
    var rows' := rows[k := rec];
    forall i, j | 0 <= i < j < |rows'| && rows'[i].status == MatchHosting && rows'[j].status == MatchHosting
      && rows'[i].hostMember.Some? && rows'[j].hostMember.Some?
      ensures rows'[i].hostMember.value.memberId != rows'[j].hostMember.value.memberId
    {
      if i == k {
        assert rows[j] in rows;
      } else if j == k {
        assert rows[i] in rows;
      }
    }
  }

  /** Replacing the row at a unique id by a row with the same id, host and a
      status that is HOSTING only if the old one was keeps the invariant. */
  lemma ReplaceSameShapeKeepsValid(db: Db, directory: map<string, Member>, row: Matching, row': Matching)
    requires Valid(db, directory)
    requires row in db.rows
    requires row'.matchId == row.matchId && row'.hostMember == row.hostMember
    requires row'.status == MatchHosting ==> row.status == MatchHosting
    ensures Valid(db.(rows := Replace(db.rows, row')), directory)
  {
    var k := IndexOf(db.rows, row);
    forall i | 0 <= i < |db.rows| && db.rows[i].matchId == row.matchId
      ensures i == k
    {
      RowById(db.rows, i, k);
    }
    NoNewHostingKeepsValid(db, db.(rows := Replace(db.rows, row')), directory);
  }

  /** `createMatch` keeps the invariant. */
  lemma CreateMatchKeepsValid(db: Db, directory: map<string, Member>, principal: string, draft: Matching)
    requires Valid(db, directory)
    ensures Valid(CreateMatch(db, directory, principal, draft).db, directory)
  {
    var r := CreateMatch(db, directory, principal, draft);
    if principal in directory {
      var member := directory[principal];
      match FindByHostMemberAndMatchStatus(db.rows, member, MatchHosting)
      case NonUnique =>
      case Found(row) =>
        var moved := row.(latitude := draft.latitude, longitude := draft.longitude);
        ReplaceSameShapeKeepsValid(db, directory, row, moved);
        assert r.db.rows == Replace(db.rows, moved) && r.db.nextId == db.nextId;
      case Absent =>
        var rec := draft.(hostMember := Some(member), hostMemberId := member.memberId);
        if IdInUse(db.rows, rec.matchId) {
          MergeKeepsValid(db, directory, member, rec);
          assert r.db.rows == Replace(db.rows, rec) && r.db.nextId == db.nextId;
        } else {
          AppendKeepsValid(db, directory, member, rec.(matchId := db.nextId));
          assert r.db.rows == db.rows + [rec.(matchId := db.nextId)] && r.db.nextId == db.nextId + 1;
        }
    }
  }

  /** `updateMatch` keeps the invariant. */
  lemma UpdateMatchKeepsValid(db: Db, directory: map<string, Member>, principal: string, requested: Option<MatchStatus>)
    requires Valid(db, directory)
    ensures Valid(UpdateMatch(db, directory, principal, requested).db, directory)
  {
    var r := UpdateMatch(db, directory, principal, requested);
    if principal in directory {
      match FindByHostMemberAndMatchStatus(db.rows, directory[principal], MatchHosting)
      case NonUnique =>
      case Absent =>
      case Found(row) =>
        var updated := if requested.Some? then row.(status := requested.value) else row;
        ReplaceSameShapeKeepsValid(db, directory, row, updated);
    }
  }

  /** `updateMatchForCustomEvent` keeps the invariant. */
  lemma CustomEventKeepsValid(db: Db, directory: map<string, Member>, a: nat, b: nat)
    requires Valid(db, directory)
    ensures Valid(UpdateMatchForCustomEvent(db, a, b), directory)
  {
    var r := UpdateMatchForCustomEvent(db, a, b);
    if r != db {
      NoNewHostingKeepsValid(db, r, directory);
    }
  }

  // ---------------------------------------------------------------------------
  // Authentication
  // ---------------------------------------------------------------------------

  /** A principal that resolves to no member makes every authenticated
      operation fail with MEMBER_NOT_FOUND, leaving the state as it was. */
  lemma UnknownCallerRejected(db: Db, directory: map<string, Member>, principal: string,
                              draft: Matching, requested: Option<MatchStatus>, email: string)
    requires principal !in directory
    ensures CreateMatch(db, directory, principal, draft) == Reply(db, Err(Business(MemberNotFound)))
    ensures UpdateMatch(db, directory, principal, requested) == Reply(db, Err(Business(MemberNotFound)))
    ensures FindVerifiedMatchByEmail(db, directory, principal, email) == Err(Business(MemberNotFound))
    ensures FindVerifiedMatch(db, directory, principal) == Err(Business(MemberNotFound))
    ensures FindHostedMatch(db, directory, principal) == Err(Business(MemberNotFound))
  {
  }

  // ---------------------------------------------------------------------------
  // createMatch
  // ---------------------------------------------------------------------------

  /** When the caller hosts a HOSTING row `h`, `createMatch` moves it: only its
      coordinates change, no row is added, and the moved row is returned. */
  lemma CreateMatchMovesHosting(db: Db, directory: map<string, Member>, principal: string, draft: Matching, h: Matching)
    requires Valid(db, directory) && principal in directory
    requires h in db.rows && HostedBy(h, directory[principal]) && h.status == MatchHosting
    ensures var r := CreateMatch(db, directory, principal, draft);
      var moved := h.(latitude := draft.latitude, longitude := draft.longitude);
      && r.out == Ok(moved)
      && |r.db.rows| == |db.rows| && r.db.nextId == db.nextId
      && (forall i :: 0 <= i < |db.rows| && db.rows[i] == h ==> r.db.rows[i] == moved)
      && (forall i :: 0 <= i < |db.rows| && db.rows[i] != h ==> r.db.rows[i] == db.rows[i])
  {
    HostingLookupUnique(db, directory, directory[principal]);
    var k := IndexOf(db.rows, h);
    forall i | 0 <= i < |db.rows| && db.rows[i].matchId == h.matchId
      ensures i == k
    {
      RowById(db.rows, i, k);
    }
  }

  /** When the caller hosts no HOSTING row and the draft is unsaved,
      `createMatch` appends exactly one row: the draft under the next id, with
      the caller as host. */
  lemma CreateMatchInserts(db: Db, directory: map<string, Member>, principal: string, draft: Matching)
    requires Valid(db, directory) && principal in directory
    requires forall m :: m in db.rows ==> !(HostedBy(m, directory[principal]) && m.status == MatchHosting)
    requires draft.matchId == 0
    ensures var r := CreateMatch(db, directory, principal, draft);
      var rec := draft.(matchId := db.nextId, hostMember := Some(directory[principal]), hostMemberId := directory[principal].memberId);
      && r.out == Ok(rec)
      && r.db.rows == db.rows + [rec]
      && r.db.nextId == db.nextId + 1
  {
    assert !IdInUse(db.rows, draft.matchId);
  }

  /** Two successive `createMatch` calls by a caller hosting nothing, starting
      from a fresh HOSTING draft, leave exactly one HOSTING row for the caller,
      at the second coordinates. */
  lemma CreateTwiceKeepsOneHosting(db: Db, directory: map<string, Member>, principal: string, first: Matching, second: Matching)
    requires Valid(db, directory) && principal in directory
    requires forall m :: m in db.rows ==> !(HostedBy(m, directory[principal]) && m.status == MatchHosting)
    requires first.matchId == 0 && first.status == MatchHosting
    ensures var db2 := CreateMatch(CreateMatch(db, directory, principal, first).db, directory, principal, second).db;
      && |db2.rows| == |db.rows| + 1
      && (exists k :: 0 <= k < |db2.rows| && HostedBy(db2.rows[k], directory[principal]) && db2.rows[k].status == MatchHosting
            && db2.rows[k].latitude == second.latitude && db2.rows[k].longitude == second.longitude)
      && (forall i, j :: (0 <= i < |db2.rows| && 0 <= j < |db2.rows|
            && HostedBy(db2.rows[i], directory[principal]) && db2.rows[i].status == MatchHosting
            && HostedBy(db2.rows[j], directory[principal]) && db2.rows[j].status == MatchHosting) ==> i == j)
  {
    var member := directory[principal];
    var db1 := CreateMatch(db, directory, principal, first).db;
    CreateMatchInserts(db, directory, principal, first);
    CreateMatchKeepsValid(db, directory, principal, first);
    var rec := db1.rows[|db.rows|];
    assert rec in db1.rows && HostedBy(rec, member) && rec.status == MatchHosting;
    CreateMatchMovesHosting(db1, directory, principal, second, rec);
    var db2 := CreateMatch(db1, directory, principal, second).db;
    CreateMatchKeepsValid(db1, directory, principal, second);
    var k := |db.rows|;
    assert db2.rows[k] == rec.(latitude := second.latitude, longitude := second.longitude);
  }

  // ---------------------------------------------------------------------------
  // updateMatch
  // ---------------------------------------------------------------------------

  /** Without a HOSTING row for the caller, `updateMatch` fails with
      MATCH_NOT_FOUND, publishes nothing and changes nothing. */
  lemma UpdateMatchWithoutHosting(db: Db, directory: map<string, Member>, principal: string, requested: Option<MatchStatus>)
    requires principal in directory
    requires forall m :: m in db.rows ==> !(HostedBy(m, directory[principal]) && m.status == MatchHosting)
    ensures UpdateMatch(db, directory, principal, requested) == Reply(db, Err(Business(MatchNotFound)))
  {
  }

  /** With the caller's HOSTING row `h`, `updateMatch` applies the requested
      status (a missing one leaves it HOSTING) to that row alone; a cancellation
      first publishes the stand-by clean-up for the caller's id and then the
      marker clean-up for the caller's email; then the row is saved. */
  lemma UpdateMatchEffects(db: Db, directory: map<string, Member>, principal: string, requested: Option<MatchStatus>, h: Matching)
    requires Valid(db, directory) && principal in directory
    requires h in db.rows && HostedBy(h, directory[principal]) && h.status == MatchHosting
    ensures var r := UpdateMatch(db, directory, principal, requested);
      var updated := h.(status := if requested.Some? then requested.value else h.status);
      var events := if requested == Some(MatchCancel) then
          [ Published(Event(DeleteRelatedMatchingStandByData, MemberIdPayload(directory[principal].memberId))),
            Published(Event(DeleteMarker, EmailPayload(principal))) ]
        else [];
      && r.out == Ok(updated)
      && r.db.effects == db.effects + events + [Saved(updated)]
      && (forall i :: 0 <= i < |db.rows| && db.rows[i] == h ==> r.db.rows[i] == updated)
      && (forall i :: 0 <= i < |db.rows| && db.rows[i] != h ==> r.db.rows[i] == db.rows[i])
  {
    HostingLookupUnique(db, directory, directory[principal]);
    var k := IndexOf(db.rows, h);
    forall i | 0 <= i < |db.rows| && db.rows[i].matchId == h.matchId
      ensures i == k
    {
      RowById(db.rows, i, k);
    }
    var host := h.hostMember.value;
    assert directory[host.email] == host;
    assert host.email == principal;
  }

  // ---------------------------------------------------------------------------
  // updateMatchForCustomEvent
  // ---------------------------------------------------------------------------

  /** The batch the custom-event update saves is exactly the table's rows hosted
      by either member that are not yet SUCCESS, in table order, each set to
      SUCCESS; it is the only effect, and it is written exactly when some row
      changed. */
  lemma CustomEventPromotes(db: Db, a: nat, b: nat)
    ensures var r := UpdateMatchForCustomEvent(db, a, b);
      var pending := Filter(db.rows, (m: Matching) => EitherHost(m, a, b) && Unpromoted(m));
      && (r == db <==> pending == [])
      && (r != db ==> exists batch :: r.effects == db.effects + [SavedAll(batch)] && PromotedCopy(batch, pending))
  {
    var found := FindByHostMemberIdOrHostMemberId(db.rows, a, b);
    var pending := Filter(db.rows, (m: Matching) => EitherHost(m, a, b) && Unpromoted(m));
    FilterTwice(db.rows, HostIdIn(a, b), Unpromoted, (m: Matching) => EitherHost(m, a, b) && Unpromoted(m));
    assert Filter(found, Unpromoted) == pending;
    if pending != [] {
      assert pending[0] in db.rows;
      var i := IndexOf(db.rows, pending[0]);
      assert EitherHost(db.rows[i], a, b) && db.rows[i].status != MatchSuccess;
    }
  }

  /** A repeated custom-event update for the same pair changes nothing. */
  lemma CustomEventIdempotent(db: Db, a: nat, b: nat)
    ensures UpdateMatchForCustomEvent(UpdateMatchForCustomEvent(db, a, b), a, b) == UpdateMatchForCustomEvent(db, a, b)
  {
    var r := UpdateMatchForCustomEvent(db, a, b);
    CustomEventPromotes(db, a, b);
    CustomEventPromotes(r, a, b);
  }

  // ---------------------------------------------------------------------------
  // Queries
  // ---------------------------------------------------------------------------

  /** `findVerifiedMatch(email, authentication)` checks, in order: the caller is
      a member, the email hosts a HOSTING row, the email is a member. Under the
      invariant a HOSTING row's host email is always a member, and the call
      returns that row with the member attached as host. */
  lemma FindVerifiedMatchByEmailOrder(db: Db, directory: map<string, Member>, principal: string, email: string)
    ensures principal !in directory ==>
      FindVerifiedMatchByEmail(db, directory, principal, email) == Err(Business(MemberNotFound))
    ensures principal in directory
      && (forall m :: m in db.rows ==> !(m.hostMember.Some? && m.hostMember.value.email == email && m.status == MatchHosting))
      ==> FindVerifiedMatchByEmail(db, directory, principal, email) == Err(Business(MatchNotFound))
    ensures principal in directory && email !in directory
      && FindByHostEmailAndMatchStatus(db.rows, email, MatchHosting).Found?
      ==> FindVerifiedMatchByEmail(db, directory, principal, email) == Err(Business(MemberNotFound))
    ensures forall h ::
              Valid(db, directory) && principal in directory && h in db.rows
              && h.hostMember.Some? && h.hostMember.value.email == email && h.status == MatchHosting
              ==> FindVerifiedMatchByEmail(db, directory, principal, email) == Ok(h.(hostMember := Some(directory[email])))
  {
    if Valid(db, directory) && principal in directory {
      forall h | h in db.rows && h.hostMember.Some? && h.hostMember.value.email == email && h.status == MatchHosting
        ensures FindVerifiedMatchByEmail(db, directory, principal, email) == Ok(h.(hostMember := Some(directory[email])))
      {
        HostingByEmailUnique(db, directory, email);
        var k := IndexOf(db.rows, h);
        assert email in directory;
      }
    }
  }

  /** `findMatches` returns the rows by id strictly descending: element `i` of
      page `page` is the row at descending position `page * size + i`, and the
      page holds every row that position range reaches. */
  lemma FindMatchesDescending(db: Db, page: int, size: int)
    requires IdsIncreasing(db.rows)
    ensures var r := FindMatches(db, page, size);
      r.Ok? ==>
        && (forall i, j :: 0 <= i < j < |r.value| ==> r.value[i].matchId > r.value[j].matchId)
        && (forall i :: 0 <= i < |r.value| ==> r.value[i] == db.rows[|db.rows| - 1 - (page * size + i)])
        && |r.value| == (if page * size >= |db.rows| then 0
                         else if page * size + size <= |db.rows| then size
                         else |db.rows| - page * size)
  {
    if page >= 0 && size >= 1 {
      var start := page * size;
      assert 0 <= start by {
        assert page >= 0 && size >= 1;
      }
      PageDescending(db.rows, start, size);
      var r := FindMatches(db, page, size);
      if start < |db.rows| {
        var end := if start + size <= |db.rows| then start + size else |db.rows|;
        assert r.value == Reverse(db.rows)[start..end];
      } else {
        assert r.value == [];
      }
    }
  }

  /** The slice of the descending table starting at `start`: at most `size`
      rows, each the row `start + i` places from the end, ids strictly
      decreasing. */
  lemma PageDescending(rows: seq<Matching>, start: nat, size: nat)
    requires IdsIncreasing(rows)
    ensures var descending := Reverse(rows);
      start < |rows| ==>
        var end := if start + size <= |rows| then start + size else |rows|;
        var p := descending[start..end];
        && (forall i, j :: 0 <= i < j < |p| ==> p[i].matchId > p[j].matchId)
        && (forall i :: 0 <= i < |p| ==> p[i] == rows[|rows| - 1 - (start + i)])
  {
    var descending := Reverse(rows);
    if start < |rows| {
      var n := |rows|;
      var end := if start + size <= n then start + size else n;
      var p := descending[start..end];
      forall i | 0 <= i < |p|
        ensures p[i] == rows[n - 1 - (start + i)]
      {
        assert p[i] == descending[start + i];
      }
      forall i, j | 0 <= i < j < |p|
        ensures p[i].matchId > p[j].matchId
      {
        assert n - 1 - (start + j) < n - 1 - (start + i);
      }
    }
  }

  /** The intended own-match lookup: under the invariant it never reports a
      non-unique result; it returns the caller's HOSTING row when there is one
      and MATCH_NOT_FOUND otherwise. */
  lemma FindHostedMatchCorrect(db: Db, directory: map<string, Member>, principal: string)
    requires Valid(db, directory) && principal in directory
    ensures var r := FindHostedMatch(db, directory, principal);
      && r != Err(IncorrectResultSize)
      && ((forall m :: m in db.rows ==> !(HostedBy(m, directory[principal]) && m.status == MatchHosting))
            <==> r == Err(Business(MatchNotFound)))
      && (forall h :: h in db.rows && HostedBy(h, directory[principal]) && h.status == MatchHosting ==> r == Ok(h))
  {
    HostingLookupUnique(db, directory, directory[principal]);
  }

  /** As written, the own-match lookup fails with a non-unique result as soon
      as the caller hosts two rows, whatever their status. */
  lemma FindVerifiedMatchTwoRows(db: Db, directory: map<string, Member>, principal: string, i: nat, j: nat)
    requires principal in directory && i < j < |db.rows|
    requires HostedBy(db.rows[i], directory[principal]) && HostedBy(db.rows[j], directory[principal])
    ensures FindVerifiedMatch(db, directory, principal) == Err(IncorrectResultSize)
  {
    assert FindByHostMember(db.rows, directory[principal]).NonUnique?;
  }

  // A concrete history: Alice hosts a match, cancels it, and hosts again.

  const Alice: Member := Member(1, "alice@example.com", "Alice", "alice", "010")

  function AliceDirectory(): map<string, Member> {
    map[Alice.email := Alice]
  }

  /** The table after Alice hosted at (37.5, 127.0) and cancelled. */
  function AfterCancel(): Db {
    var db1 := CreateMatch(Db([], 1, []), AliceDirectory(), Alice.email, NewMatching(Coord(375), Coord(1270))).db;
    UpdateMatch(db1, AliceDirectory(), Alice.email, Some(MatchCancel)).db
  }

  /** The table after Alice then hosted again at (37.6, 127.1). */
  function AfterRecreate(): Db {
    CreateMatch(AfterCancel(), AliceDirectory(), Alice.email, NewMatching(Coord(376), Coord(1271))).db
  }

  function CancelledRow(): Matching {
    NewMatching(Coord(375), Coord(1270)).(matchId := 1, hostMember := Some(Alice), hostMemberId := 1, status := MatchCancel)
  }

  function RecreatedRow(): Matching {
    NewMatching(Coord(376), Coord(1271)).(matchId := 2, hostMember := Some(Alice), hostMemberId := 1)
  }

  /** The tables of the history. */
  lemma HistoryRows()
    ensures AfterCancel().rows == [CancelledRow()]
    ensures AfterRecreate().rows == [CancelledRow(), RecreatedRow()]
  {
    var row1 := CancelledRow().(status := MatchHosting);
    var db1 := CreateMatch(Db([], 1, []), AliceDirectory(), Alice.email, NewMatching(Coord(375), Coord(1270))).db;
    assert db1.rows == [row1];
    assert AfterCancel().rows == [CancelledRow()];
  }

  /** Right after the cancellation, the as-written lookup returns the cancelled
      row where the intended lookup reports MATCH_NOT_FOUND. */
  lemma FindVerifiedMatchAfterCancel()
    ensures FindVerifiedMatch(AfterCancel(), AliceDirectory(), Alice.email) == Ok(CancelledRow())
    ensures FindHostedMatch(AfterCancel(), AliceDirectory(), Alice.email) == Err(Business(MatchNotFound))
  {
    HistoryRows();
    assert FindByHostMember(AfterCancel().rows, Alice) == Found(CancelledRow());
  }

  /** After hosting again, the as-written lookup throws on a non-unique result,
      while the intended lookup returns the new HOSTING row. */
  lemma FindVerifiedMatchAfterRecreate()
    ensures FindVerifiedMatch(AfterRecreate(), AliceDirectory(), Alice.email) == Err(IncorrectResultSize)
    ensures FindHostedMatch(AfterRecreate(), AliceDirectory(), Alice.email) == Ok(RecreatedRow())
  {
    HistoryRows();
    FindVerifiedMatchTwoRows(AfterRecreate(), AliceDirectory(), Alice.email, 0, 1);
    assert RecreatedRow() in AfterRecreate().rows;
  }
}

=== FILE: store.dfy ===
/** The distributed key/value store (a Redis node) as the cache services use it:
    string keys, per-key expiry, glob key enumeration, and a connection that
    may drop part-way through a sequence of commands. Time is an abstract clock
    in seconds. */
module KeyValueStore {
  import opened Common

  /** A value as the services store it: a JSON document one of them wrote, or
      any other text. Serialisation is abstract; a document is read back only as
      the type it was written as. */
  datatype Doc =
    | LocationDoc(latitude: Coord, longitude: Coord)
    | MarkerDoc(email: string, latitude: Coord, longitude: Coord)
    | OtherText(text: string)

  /** A stored value and its expiry instant, if it has one. */
  datatype Entry = Entry(doc: Doc, expiresAt: Option<nat>)

  type Store = map<string, Entry>

  /** The key holds a value that has not expired at `now`. */
  predicate Live(store: Store, key: string, now: nat) {
    key in store && (store[key].expiresAt.None? || now < store[key].expiresAt.value)
  }

  /** The connection to the store: always up, or serving `n` more commands and
      then failing every command after them. */
  datatype Link = Up | DropsAfter(n: nat)

  /** Command number `i` (counting from 0) of an operation succeeds. */
  predicate Serves(link: Link, i: nat) {
    link.Up? || i < link.n
  }

  /** The link as seen after `k` commands have been issued on it. */
  function Shift(link: Link, k: nat): (r: Link)
    ensures forall i: nat :: Serves(r, i) == Serves(link, i + k)
  {
    match link
    case Up => Up
    case DropsAfter(n) => if n >= k then DropsAfter(n - k) else DropsAfter(0)
  }

  /** GET: the live value of the key. */
  function Get(store: Store, key: string, now: nat): (r: Option<Doc>)
    ensures r.Some? <==> Live(store, key, now)
    ensures r.Some? ==> r.value == store[key].doc
  {
    if Live(store, key, now) then Some(store[key].doc) else None
  }

  /** SET without options: stores the value and clears any expiry. */
  function Set(store: Store, key: string, doc: Doc): (r: Store)
    ensures r.Keys == store.Keys + {key}
    ensures r[key] == Entry(doc, None)
    ensures forall k :: k in store && k != key ==> r[k] == store[k]
  {
    store[key := Entry(doc, None)]
  }

  /** EXPIRE: a live key expires `ttl` seconds from now; otherwise nothing changes. */
  function Expire(store: Store, key: string, ttl: nat, now: nat): (r: Store)
    ensures Live(store, key, now) ==> r == store[key := store[key].(expiresAt := Some(now + ttl))]
    ensures !Live(store, key, now) ==> r == store
  {
    if Live(store, key, now) then store[key := store[key].(expiresAt := Some(now + ttl))] else store
  }

  /** DEL: the key is gone. */
  function Delete(store: Store, key: string): (r: Store)
    ensures key !in r
    ensures forall k :: k != key ==> (k in r <==> k in store) && (k in r ==> r[k] == store[k])
  {
    store - {key}
  }

  /** Redis glob matching for patterns built from literal characters, `*` (any
      run of characters) and `?` (any one character). */
  function GlobMatch(pattern: string, s: string): bool
    decreases |pattern| + |s|
  {
    if |pattern| == 0 then |s| == 0
    else if pattern[0] == '*' then GlobMatch(pattern[1..], s) || (|s| > 0 && GlobMatch(pattern, s[1..]))
    else if |s| == 0 then false
    else if pattern[0] == '?' then GlobMatch(pattern[1..], s[1..])
    else pattern[0] == s[0] && GlobMatch(pattern[1..], s[1..])
  }

  /** `*` matches every key. */
  lemma {:induction false} StarMatchesAll(s: string)
    ensures GlobMatch("*", s)
    decreases |s|
  {
    if |s| > 0 {
      StarMatchesAll(s[1..]);
    }
  }

  /** A literal prefix followed by `*` matches exactly the keys that start with
      the prefix. */
  lemma {:induction false} PrefixGlob(prefix: string, s: string)
    requires forall i :: 0 <= i < |prefix| ==> prefix[i] != '*' && prefix[i] != '?'
    ensures GlobMatch(prefix + "*", s) <==> (|prefix| <= |s| && s[..|prefix|] == prefix)
    decreases |prefix|
  {
    if |prefix| == 0 {
      assert prefix + "*" == "*";
      StarMatchesAll(s);
    } else {
      assert (prefix + "*")[1..] == prefix[1..] + "*";
      if |s| > 0 {
        PrefixGlob(prefix[1..], s[1..]);
        if |prefix| <= |s| && s[..|prefix|] == prefix {
          assert s[1..][..|prefix| - 1] == s[..|prefix|][1..];
        }
        if prefix[0] == s[0] && |prefix[1..]| <= |s[1..]| && s[1..][..|prefix[1..]|] == prefix[1..] {
          assert s[..|prefix|] == [s[0]] + s[1..][..|prefix[1..]|];
        }
      }
    }
  }

  /** KEYS: the live keys matching the pattern. */
  function Keys(store: Store, pattern: string, now: nat): (r: set<string>)
    ensures forall k :: k in r <==> Live(store, k, now) && GlobMatch(pattern, k)
  {
    set k | k in store && Live(store, k, now) && GlobMatch(pattern, k)
  }
}
